=== FILE: README.md ===
# LinearDataStructures in Dafny

A model of the five container modules of LinearDataStructures, with proofs
about them:

- `DoublyLinkedList` (doublylinkedlist.py): a chain of nodes with `head`, `tail`
  and `prev_node`/`next_node` links. It supports construction, indexed get and
  set (non-negative indices only), `append_left`/`append_right`/`append`,
  `pop_left`/`pop_right`/`pop(index)`, `contains` and `py_list`.
- `LinkedList` (linkedlist.py): a singly linked chain that is never empty. It
  supports a one-item constructor, `append_left`, `append_right` by walking to
  the tail, `py_list` and `Node.is_tail`.
- `Queue` (queue.py), `Stack` (stack.py) and `Carueue` (carueue.py): wrappers
  over a Python list. Carueue also has the `is_permutation` anagram test and
  the decision logic of `find_carmen`.

## How the model is built

- **Errors.** Every Python exception the code can raise on a well-typed call
  becomes an `Err` of `Exceptions.Result`: `IndexError`, `ValueError`, or
  `AttributeError` for an attribute read or write on `None`.
- **Python list semantics.** `PyLists` states the list operations the wrappers
  delegate to: `s[i]` with negative indices, `s[i] = v`, `del s[i]`, `s.index(x)`
  and `del s[s.index(x)]`. Each is stated once, together with its error cases.
- **Linked lists as arenas.** Both linked lists are modelled as arenas: a map
  from node identity to node, plus the list's own references.
  - `Chain` is the unique sequence of nodes reached from the head by following
    `next`.
  - `Items` is the sequence of their payloads: what `py_list` shows.
  - Every operation is stated in terms of `Items`, and also in terms of the
    link invariants: the head has no predecessor, the tail has no
    successor, and `A.next == B` exactly when `B.prev == A` (`DllChain.Valid`).
- **Function or method.** Doubly linked operations without a loop are
  functions, and their meaning is proved in a `...Spec` lemma. Operations the
  source writes as a `while` loop over the chain are methods with that loop.
- **Wrapper classes.** Queue, Stack and Carueue are values holding their item
  sequence.
  - A mutating call returns the new value.
  - `__init__(*items)` is the datatype constructor, so construction keeps
    argument order.
  - `__add__` leaves the receiver unchanged, which holds by construction.

Some facts about the code that the model keeps:

- `DoublyLinkedList` indexing takes no negative indices: a negative index
  reads as None and assigns nothing. Neither linked list has an `insert`.
- `pop` returns nothing in `DoublyLinkedList`, `Queue` and `Stack`; only
  `Carueue.pop` returns the removed item.
- `LinkedList(item)` takes exactly one item.
- `is_permutation` has no shortcut for equal strings.
- `pop_left` does not clear the tail (see Findings).

## Model

| member | source | states |
|---|---|---|
| `PyLists.Resolve` | queue.py:23 | a Python index designates a position exactly when `-n <= i < n`, counting from the end when negative |
| `PyLists.Get` | stack.py:20 | `s[i]` succeeds exactly for `-n <= i < n`, yields the resolved element, and otherwise raises IndexError |
| `PyLists.Set` | queue.py:28 | `s[i] = v` succeeds exactly in range and replaces only the resolved position; otherwise raises IndexError |
| `PyLists.Delete` | queue.py:58-61 | `del s[i]` succeeds exactly in range and removes only the resolved position; otherwise raises IndexError |
| `PyLists.Index` | queue.py:66 | `s.index(x)` succeeds exactly when `x` occurs, and gives its first position; otherwise raises ValueError |
| `PyLists.Remove` | stack.py:41 | `del s[s.index(x)]` succeeds exactly when `x` occurs; it deletes the first occurrence, removing one copy of `x` from the multiset; otherwise raises ValueError |
| `PyLists.DeleteMultiset` | queue.py:66 | deleting position k takes exactly one copy of `s[k]` out of the multiset of items |
| `DllChain.LinkedUnique` | doublylinkedlist.py:157-165 | following `next_node` from the head determines one sequence of nodes, so `py_list` is well defined |
| `DllChain.ChainIs` | doublylinkedlist.py:157-165 | any acyclic forward chain from the head is the list's chain, and its payloads are the list's items |
| `DoublyLinkedLists.FromSeq` | doublylinkedlist.py:26-32 | construction yields a closed object graph: every link designates a node created by the call |
| `DoublyLinkedLists.FromSeqNode` | doublylinkedlist.py:27-30 | node i of a construction holds argument i and links back to node i-1 and forward to node i+1 where they exist |
| `DoublyLinkedLists.FromSeqChain` | doublylinkedlist.py:28-30 | the created nodes are chained forward and backward in argument order and carry the arguments |
| `DoublyLinkedLists.FromSeqSpec` | doublylinkedlist.py:26-30 | construction gives a well-formed list whose items are the arguments in order |
| `DoublyLinkedLists.FromSeqEnds` | doublylinkedlist.py:31-32 | after construction head and tail are the first and last node of the chain, or both None when there are no arguments |
| `DoublyLinkedLists.GetItem` | doublylinkedlist.py:37-55 | returns item i for `0 <= i < n`, raises IndexError for `i >= n`, and returns None without error for negative i |
| `DoublyLinkedLists.RelabelSpec` | doublylinkedlist.py:64-67 | assigning a chained node's item keeps the chain and well-formedness and changes exactly that position of the items |
| `DoublyLinkedLists.SetItem` | doublylinkedlist.py:57-70 | for `0 <= i < n` only position i changes and the chain is kept; `i >= n` raises IndexError; a negative i is a silent no-op |
| `DoublyLinkedLists.AppendLeft` | doublylinkedlist.py:72-81 | `append_left` keeps the object graph closed |
| `DoublyLinkedLists.AppendLeftSpec` | doublylinkedlist.py:72-81 | `append_left(v)` keeps the list well formed and gives items `[v] + old`; an empty list's tail becomes the new node, otherwise the tail is kept |
| `DoublyLinkedLists.AppendRight` | doublylinkedlist.py:83-92 | `append_right` keeps the object graph closed |
| `DoublyLinkedLists.AppendRightSpec` | doublylinkedlist.py:83-92 | `append_right(v)` keeps the list well formed and gives items `old + [v]`; an empty list's head becomes the new node, otherwise the head is kept |
| `DoublyLinkedLists.Append` | doublylinkedlist.py:94-97 | `append(v)` on a well-formed list gives a well-formed list with items `old + [v]` |
| `DoublyLinkedLists.PopLeft` | doublylinkedlist.py:99-107 | `pop_left` keeps the object graph closed and never changes the tail |
| `DoublyLinkedLists.DropFirst` | doublylinkedlist.py:105-107 | with two or more nodes, moving the head to its successor and clearing that node's `prev_node` gives a well-formed list of the items after the first |
| `DoublyLinkedLists.PopLeftSpec` | doublylinkedlist.py:99-107 | `pop_left` raises IndexError exactly on an empty list; otherwise the items lose their first and the tail is kept. The result is well formed with two or more items; with one item the head is None but the tail is not, so the result is not well formed |
| `DoublyLinkedLists.PopLeftIntended` | doublylinkedlist.py:105-107 | the corrected `pop_left` keeps the object graph closed |
| `DoublyLinkedLists.PopLeftIntendedSpec` | doublylinkedlist.py:99-107 | the corrected `pop_left` raises IndexError exactly on an empty list and otherwise gives a well-formed list without the first item; with one item, head and tail are both None |
| `DoublyLinkedLists.PopLeftAgreesOnLongerLists` | doublylinkedlist.py:105-107 | `pop_left` as written and as corrected give the same result exactly when the list does not have one item |
| `DoublyLinkedLists.PopRight` | doublylinkedlist.py:109-118 | `pop_right` keeps the object graph closed and its nodes |
| `DoublyLinkedLists.PopRightRaisedState` | doublylinkedlist.py:116-118 | when `pop_right` raises AttributeError, the list keeps its nodes and head and is left without a tail, which differs from the list before the call whenever it had a tail |
| `DoublyLinkedLists.DropLast` | doublylinkedlist.py:117-118 | with two or more nodes, moving the tail to its predecessor and clearing that node's `next_node` gives a well-formed list of all items but the last |
| `DoublyLinkedLists.PopRightSpec` | doublylinkedlist.py:109-118 | `pop_right` raises IndexError exactly on an empty list; otherwise it gives a well-formed list without the last item, and a one-item list ends with head and tail both None |
| `DoublyLinkedLists.Unlink` | doublylinkedlist.py:133-141 | the splice `pop(index)` applies to one node keeps the object graph closed and its nodes |
| `DoublyLinkedLists.UnlinkAsWritten` | doublylinkedlist.py:133-141 | the same splice calling `pop_left` as written keeps the object graph closed and its nodes |
| `DoublyLinkedLists.UnlinkAgreesWithAsWritten` | doublylinkedlist.py:133-141 | at every node on the forward chain of a traversable object graph, well formed or not, the splice gives the same result with `pop_left` as written and as corrected |
| `DoublyLinkedLists.UnlinkHead` | doublylinkedlist.py:136-141 | splicing out the head of a list of two or more goes through `pop_left` and removes exactly the first item |
| `DoublyLinkedLists.UnlinkTail` | doublylinkedlist.py:134-141 | splicing out the tail of a list of two or more goes through `pop_right` and removes exactly the last item |
| `DoublyLinkedLists.BypassNodes` | doublylinkedlist.py:134-139 | the interior splice changes only the predecessor's `next_node` and the successor's `prev_node`, and no item |
| `DoublyLinkedLists.BypassLinked` | doublylinkedlist.py:134-135 | after the interior splice the forward chain skips exactly the spliced node |
| `DoublyLinkedLists.BypassBackLinked` | doublylinkedlist.py:138-139 | after the interior splice the backward links agree with the shortened forward chain |
| `DoublyLinkedLists.UnlinkInner` | doublylinkedlist.py:133-141 | splicing out an interior node removes exactly that item and keeps the list well formed |
| `DoublyLinkedLists.UnlinkSpec` | doublylinkedlist.py:130-143 | with two or more nodes, splicing out position k keeps the list well formed, removes exactly item k, keeps the others in order, and leaves the `next_node` of node k and its followers as they were, so the walk goes on |
| `DoublyLinkedLists.Pop` | doublylinkedlist.py:120-145 | raises IndexError on an empty list for any index; empties a one-item list for any index; with two or more items it drops the last item when no index is given and item k for `0 <= k < n`, raises IndexError for `k >= n`, and is a silent no-op for negative k |
| `DoublyLinkedLists.PopWalk` | doublylinkedlist.py:130-145 | the walk from the head on a well-formed list of two or more items unlinks the k-th node when `0 <= k < n`, raises IndexError when `k >= n`, and leaves the list as it was when k is negative |
| `DoublyLinkedLists.Contains` | doublylinkedlist.py:147-155 | true exactly when some item equals x |
| `DoublyLinkedLists.PyList` | doublylinkedlist.py:157-165 | returns the nodes (not the items) from head to tail, whose payloads are the items in order |
| `DoublyLinkedLists.PopRightTimes` | doublylinkedlist.py:109-118 | repeated `pop_right` keeps the object graph closed |
| `DoublyLinkedLists.PopRightTimesSpec` | doublylinkedlist.py:109-118 | k successive `pop_right` calls, for k up to the length, leave a well-formed list of all but the last k items |
| `DoublyLinkedLists.DrainRight` | doublylinkedlist.py:112-115 | popping right n times empties the list (head and tail None), and one more `pop_right` raises IndexError |
| `DoublyLinkedLists.PopLeftTimes` | doublylinkedlist.py:99-107 | repeated `pop_left` keeps the object graph closed |
| `DoublyLinkedLists.PopLeftTimesSpec` | doublylinkedlist.py:99-107 | fewer than n successive `pop_left` calls leave a well-formed list of the items after the first k, with the tail unchanged |
| `DoublyLinkedLists.PopLeftTimesSplit` | doublylinkedlist.py:99-107 | k+1 successive `pop_left` calls are k calls followed by one more |
| `DoublyLinkedLists.DrainLeftKeepsTail` | doublylinkedlist.py:102-107 | popping left n times leaves head None but the tail still set, so the result is not well formed; a further `pop_left` raises IndexError |
| `DoublyLinkedLists.PopLeftLast` | doublylinkedlist.py:102-107 | `pop_left` on a one-item list succeeds but leaves the head None and the tail set, so the list is not well formed, and a further `pop_left` raises IndexError |
| `DoublyLinkedLists.PopLeftLeavesStaleTail` | doublylinkedlist.py:105-118 | on a one-item list, `pop_left` then `append_left(b)` then `pop_right` raises AttributeError and leaves a list with a head but no tail, which is not well formed; with the corrected `pop_left`, the same calls succeed |
| `LinkedLists.IsTail` | linkedlist.py:14-20 | `is_tail()` holds exactly when the node's `next` designates no node |
| `LinkedLists.New` | linkedlist.py:26-27 | `LinkedList(item)` creates one node, the head, holding the item and with no successor |
| `LinkedLists.LinkedUnique` | linkedlist.py:48-52 | following `next` from the head determines one sequence of nodes |
| `LinkedLists.ChainIs` | linkedlist.py:48-52 | any acyclic chain from the head to a tail node is the list's chain |
| `LinkedLists.IsTailSpec` | linkedlist.py:14-20 | along the chain, `is_tail()` holds of the last node and of no other |
| `LinkedLists.NewSpec` | linkedlist.py:26-27 | the constructor gives a well-formed one-node list holding the item, whose head is also the tail |
| `LinkedLists.AppendLeft` | linkedlist.py:29-34 | `append_left` adds one node and changes no existing node |
| `LinkedLists.AppendLeftSpec` | linkedlist.py:29-34 | `append_left(v)` keeps the list well formed, puts the new node first and gives items `[v] + old` |
| `LinkedLists.LinkAfter` | linkedlist.py:43 | linking a new node after a node adds exactly that node and keeps the head |
| `LinkedLists.LinkAfterTail` | linkedlist.py:39-43 | linking a fresh node after the tail keeps the list well formed and gives items `old + [v]` |
| `LinkedLists.AppendRight` | linkedlist.py:36-43 | the walk reaches the tail; only the old tail's `next` changes, the new node is the new tail, and the items become `old + [v]` |
| `LinkedLists.PyList` | linkedlist.py:45-53 | returns the nodes from head to tail: at least one, first the head, last a node that is the tail, with payloads the items in order |
| `LinkedLists.Build` | linkedlist.py:26-43 | any sequence of appends after construction leaves a well-formed list with one node more per append |
| `LinkedLists.BuildHoldsExpected` | linkedlist.py:26-53 | after any sequence of appends the items are those the sequence of `append_left`/`append_right` calls predicts, one for the constructor and one per append |
| `Queues.GetItem` | queue.py:16-23 | `queue[i]` is the item at i, counting from the end for negative i; out of range raises IndexError |
| `Queues.SetItem` | queue.py:25-28 | `queue[i] = v` succeeds exactly in range, keeps the length, and otherwise raises IndexError |
| `Queues.SetThenGet` | queue.py:16-28 | after `queue[i] = v`, `queue[i]` is v and every other position reads as before |
| `Queues.Add` | queue.py:30-46 | `queue + other` is a plain list: the queue's items followed by a Queue's or list's items, or by any other operand as one element |
| `Queues.Append` | queue.py:48-51 | `append(x)` lengthens the queue by one, keeps the old items in front and puts x last |
| `Queues.AddDispatch` | queue.py:41-46 | adding a Queue is adding the list of its items, and adding any other object is appending it |
| `Queues.Pop` | queue.py:53-61 | without an index the first item is deleted (IndexError on an empty queue); `pop(i)` deletes the item at i with Python's index semantics or raises IndexError; nothing is returned |
| `Queues.FifoOrder` | queue.py:48-61 | the item popped after an append is the oldest one; it is the appended one only when the queue was empty |
| `Queues.AppendThenPopLast` | queue.py:48-59 | `pop(-1)` undoes `append` |
| `Queues.Remove` | queue.py:63-66 | `remove(x)` deletes only the first occurrence of x, and raises ValueError when x is absent |
| `Queues.Contains` | queue.py:68-74 | `contains(x)` is True exactly when some position holds x |
| `Queues.ContainsIffRemovable` | queue.py:63-74 | `contains(x)` holds exactly when `remove(x)` succeeds, which then takes away exactly one copy of x |
| `Stacks.GetItem` | stack.py:17-20 | `stack[i]` indexes the items directly, negative indices included; out of range raises IndexError |
| `Stacks.Add` | stack.py:22-30 | `stack + other` is a plain list: the stack's items followed by a Stack's or list's items, or by any other operand as one element |
| `Stacks.Append` | stack.py:32-35 | `append(x)` lengthens the stack by one, keeps the old items and puts x on top |
| `Stacks.Pop` | stack.py:37-43 | a truthy argument deletes the first occurrence of that value (ValueError when absent); a falsy or missing one deletes the last item (IndexError when empty) |
| `Stacks.PushThenPop` | stack.py:32-43 | last in, first out: `pop()` undoes `append(x)` |
| `Stacks.FalsyArgumentPopsTop` | stack.py:40-43 | a falsy argument is ignored, even when it occurs in the stack |
| `Stacks.PopOneTakesValue` | stack.py:40-41 | `pop(1)` on the stack 7, 9, 1 deletes the value 1, not position 1 |
| `Stacks.RemoveOneFrom791` | stack.py:41 | `del items[items.index(1)]` on 7, 9, 1 leaves 7, 9 |
| `Stacks.IndexOfOne` | stack.py:41 | `index(1)` on 7, 9, 1 is 2 |
| `Stacks.IndexSkip` | stack.py:41 | `index(x)` skips a first item that differs from x: one more than the position in the rest, or ValueError |
| `Stacks.PopZeroTakesTop` | stack.py:40-43 | `pop(0)` on the stack 0, 5 deletes the top, not the value 0 |
| `Stacks.Contains` | stack.py:45-51 | `contains(x)` is True exactly when some position holds x |
| `Stacks.ContainsIffPoppable` | stack.py:37-51 | `contains(x)` holds exactly when popping the truthy value x succeeds |
| `Carueues.Len` | carueue.py:33-36 | `len()` counts every item, each copy once, and is 0 exactly for an empty Carueue |
| `Carueues.GetItem` | carueue.py:38-45 | `carueue[i]` is the item at i, counting from the end for negative i; out of range raises IndexError |
| `Carueues.SetItem` | carueue.py:47-50 | `carueue[i] = v` succeeds exactly in range, keeps `len`, and otherwise raises IndexError |
| `Carueues.SetThenGet` | carueue.py:38-50 | after `carueue[i] = v`, `carueue[i]` is v and every other position reads as before |
| `Carueues.Append` | carueue.py:75-78 | `append(x)` increases `len` by one, keeps the old items and puts x last |
| `Carueues.Add` | carueue.py:52-73 | `carueue + other` is a new Carueue whose length is the sum of the lengths. It holds the receiver's items followed by a Carueue's or list's items, or by any other operand as one element |
| `Carueues.Pop` | carueue.py:80-91 | returns and removes the first item, or `items[i]` with Python's index semantics; IndexError when empty or out of range |
| `Carueues.PopThenReinsert` | carueue.py:80-91 | popping decreases `len` by one, and putting the returned item back at its position restores the Carueue |
| `Carueues.FifoOrder` | carueue.py:75-91 | `pop()` returns the item appended earliest |
| `Carueues.Remove` | carueue.py:93-96 | `remove(x)` deletes only the first occurrence of x, and raises ValueError when x is absent |
| `Carueues.Contains` | carueue.py:98-104 | `contains(x)` is True exactly when some position below `len` holds x |
| `Carueues.ContainsIffRemovable` | carueue.py:93-104 | `contains(x)` holds exactly when `remove(x)` succeeds, which then takes one copy of x and decreases `len` by one |
| `Carueues.StripSpaces` | carueue.py:115 | `replace(' ', '')` leaves no space and keeps every other character with its multiplicity |
| `Carueues.PermutationIgnoresCase` | carueue.py:10-18 | being a permutation does not depend on letter case and is symmetric |
| `Carueues.StrikeOut` | carueue.py:13-14 | striking out a letter of `test` removes one copy of it from the multiset, or nothing when it is absent |
| `Carueues.StrikeOutStep` | carueue.py:12-14 | after each letter of the word, what remains of `test` is `test` minus the letters seen so far |
| `Carueues.NothingLeft` | carueue.py:15-18 | for equal lengths, nothing remains of `test` exactly when the two have the same letters |
| `Carueues.IsPermutation` | carueue.py:5-18 | False whenever the lengths differ; otherwise True exactly when the lower-cased strings have the same characters with the same multiplicities |
| `Carueues.Decimal` | carueue.py:124 | `str(n)` is a non-empty string of digits without a leading zero |
| `Carueues.DecimalRoundTrip` | carueue.py:124 | reading back the decimal text of n gives n |
| `Carueues.Ordinal` | carueue.py:116-124 | the ordinal is at least three characters and ends in "st", "nd", "rd" or "th"; positions 0, 1 and 2 are the single digit 1, 2 or 3 followed by "st", "nd" and "rd" respectively |
| `Carueues.OrdinalSpec` | carueue.py:116-124 | the ordinal of position i is the number i+1 in decimal followed by a two-letter suffix, which is "th" exactly from the fourth position on (the suffixes of the first three are fixed by `Ordinal`'s contract) |
| `Carueues.OrdinalsPastTwenty` | carueue.py:117-124 | positions 3, 20 and 21 give "4th", "21th" and "22th" |
| `Carueues.FindCarmen` | carueue.py:106-128 | reports the ordinal of the first item whose space-stripped text is a permutation of "carmensandiego", and reports failure when no item is |
| `Carueues.FoundAt` | carueue.py:125 | the found line carries the ordinal of the position between its fixed opening and closing words, and is never the failure line of carueue.py:128 |
| `Carueues.MessagesDistinct` | carueue.py:125-128 | the two messages differ, and different positions give different messages |
| `Carueues.StripSpacesAppend` | carueue.py:115 | stripping spaces distributes over concatenation |
| `Carueues.Lower` | carueue.py:10-11 | ASCII lower-casing keeps the length and lowers each character in place; applying it twice is applying it once (`LowerIdempotent`) |
| `Carueues.LowerIdempotent` | carueue.py:10-11 | lower-casing an already lower-cased string changes nothing |
| `Carueues.StripSpacesLower` | carueue.py:10 | lower-casing commutes with stripping spaces |
| `Carueues.CarmenIgnoresSpaces` | carueue.py:110-115 | a space anywhere in an item's text does not change whether it is Carmen |
| `Carueues.SpaceVanishes` | carueue.py:115 | a space between two texts disappears when spaces are stripped |
| `Carueues.CarmenIgnoresCase` | carueue.py:110-115 | the case of an item's letters does not change whether it is Carmen |

## Left out

- Printing is left out: `__repr__`, `print_nodes` and the `__main__` demonstrations. `find_carmen` prints one line and returns None; `Carueues.FindCarmen` returns the line instead.
- `str(item)` in `find_carmen` is the parameter `show`, because the items' `__str__` is code outside these files.
- `Lower` lower-cases ASCII letters only. Python's Unicode `lower()`, which can also change a string's length, is not modelled.
- The truth value of `Stack.pop`'s argument is the parameter `truthy`, because the argument's `__bool__` is code outside these files.
- Item comparison in `contains`, `index` and `remove` is Dafny equality. A user-defined `__eq__` is not modelled.
- The TypeError paths for non-integer indices (doublylinkedlist.py:45-46, 60-61, 128-129) are left out, because indices are modelled as integers.
- `DoublyLinkedList` and its appends reuse a `Node` argument as the node itself (doublylinkedlist.py:27, 75, 86). The model only passes payloads, because a foreign node would bring in stale links.
- linkedlist.py compares `type(item)` with the metaclass (`type(Node)`), so any value, a `Node` included, becomes the payload of a fresh node; that is what the model does. The case of a class object passed as an item is left out.
- Unreachable nodes are never removed from the arenas; they do not affect any result.
- DoublyLinkedLists.GetItem: requires a chain from the head that ends. A cycle needs a reused `Node` (left out above). On one, the source returns once its walk reaches `index` and loops forever otherwise, which is only for a negative index: the walk never reaches None, so it reaches every index of 0 or more.
- DoublyLinkedLists.SetItem: requires a chain from the head that ends. Its loop has no early exit, so on a cycle it never ends.
- DoublyLinkedLists.Contains: requires a chain from the head that ends. On a cycle (which needs a reused `Node`), the source returns True once it meets `item` and loops forever otherwise.
- DoublyLinkedLists.PyList: requires a chain from the head that ends. Its loop has no early exit, so on a cycle it never ends.
- DoublyLinkedLists.Pop: requires a well-formed list. On a list already broken by `pop_left` (see Findings), its behaviour is only what `PopRight` and `Unlink` compute, with no contract about items.
- DoublyLinkedLists.PopRight: its `Err(AttributeError)` does not carry the list, although doublylinkedlist.py:117 has already cleared the tail when line 118 raises. That state is given separately by `PopRightRaisedState`, and `PopRightTimes` stops at the first exception without it.
- DoublyLinkedLists.AppendLeftSpec: states the items only for a well-formed list. `AppendLeft` itself is defined and closed on any closed object graph, and `PopLeftLeavesStaleTail` shows what it does on a broken one.
- Repeated appends to a `LinkedList` are stated through `LinkedLists.Build`, which applies `LinkAfter` at the tail. The method `AppendRight` is proved to compute the same list.

## Findings

| source | as written | input that shows it | evidently intended | confidence | as-written member | corrected member |
|---|---|---|---|---|---|---|
| doublylinkedlist.py:105-107 | `pop_left` moves the head to its successor and never touches `self.tail`, so popping the only node leaves `tail` designating the removed node | `DoublyLinkedList(a)`, then `pop_left()`, `append_left(b)`, `pop_right()`: the head is b's node but the tail is the removed node, whose `prev_node` is None, so `pop_right` raises AttributeError | popping the only node clears the tail as well, as `pop_right` does (doublylinkedlist.py:114-115) | not executed | `DoublyLinkedLists.PopLeft`, `DoublyLinkedLists.PopLeftLeavesStaleTail` | `DoublyLinkedLists.PopLeftIntended`, `DoublyLinkedLists.PopLeftIntendedSpec` |

On a well-formed list `pop(index)` calls `pop_left` only with two or more
nodes, where both versions agree (`DoublyLinkedLists.PopLeftAgreesOnLongerLists`).
On a list broken by `pop_left` it can call it on a head without successor: after
the input above, `pop(0)` does. The `pop_right` that follows at
doublylinkedlist.py:141 then raises IndexError with either version. So the
splice gives the same result with either version on every traversable object
graph (`DoublyLinkedLists.UnlinkAgreesWithAsWritten`), and
`DoublyLinkedLists.Unlink` uses the corrected one.

=== FILE: carueue.dfy ===
/** carueue.py: the `Carueue` first-in first-out container, the
    `is_permutation` anagram test and the search `find_carmen` builds on it. */
module Carueues {
  import opened Exceptions
  import opened PyLists

  /** `Carueue(*items)` keeps its arguments in order. */
  datatype Carueue<T> = Carueue(items: seq<T>)

  /** What `__add__` may receive: a Carueue, a list, or any other object. */
  datatype Operand<T> = CarueueOperand(carueue: Carueue<T>) | ListOperand(list: seq<T>) | ObjectOperand(obj: T)

  /** The items an operand contributes to a concatenation: its items when it
      is a Carueue or a list, the operand itself otherwise. */
  function Contribution<T>(other: Operand<T>): (xs: seq<T>)
    ensures other.ObjectOperand? ==> |xs| == 1
  {
    match other
    case CarueueOperand(o) => o.items
    case ListOperand(xs) => xs
    case ObjectOperand(x) => [x]
  }

  /** `len(carueue)`: the number of items, each copy counted. */
  function Len<T>(c: Carueue<T>): (n: nat)
    ensures n == |multiset(c.items)|
    ensures n == 0 <==> c.items == []
  {
    |c.items|
  }

  /** `carueue[i]`, with Python's negative indices. */
  function GetItem<T>(c: Carueue<T>, i: int): (r: Result<T>)
    ensures r.Ok? <==> -|c.items| <= i < |c.items|
    ensures r.Err? ==> r.error == IndexError
    ensures 0 <= i < Len(c) ==> r == Ok(c.items[i])
    ensures -|c.items| <= i < 0 ==> r == Ok(c.items[Len(c) + i])
  {
    Get(c.items, i)
  }

  /** `carueue[i] = v` */
  function SetItem<T>(c: Carueue<T>, i: int, v: T): (r: Result<Carueue<T>>)
    ensures r.Ok? <==> -|c.items| <= i < |c.items|
    ensures r.Err? ==> r.error == IndexError
    ensures r.Ok? ==> Len(r.value) == Len(c)
  {
    var items :- Set(c.items, i, v);
    Ok(Carueue(items))
  }

  /** Reading back a position just assigned yields the assigned value, and
      every other position reads as before. */
  lemma SetThenGet<T>(c: Carueue<T>, i: int, v: T)
    requires -|c.items| <= i < |c.items|
    ensures SetItem(c, i, v).Ok?
    ensures GetItem(SetItem(c, i, v).value, i) == Ok(v)
    ensures forall j :: -|c.items| <= j < |c.items| && Resolve(Len(c), j) != Resolve(Len(c), i) ==>
      GetItem(SetItem(c, i, v).value, j) == GetItem(c, j)
  {
  }

  /** `append(x)` adds `x` at the back. */
  function Append<T>(c: Carueue<T>, x: T): (r: Carueue<T>)
    ensures Len(r) == Len(c) + 1
    ensures r.items[..Len(c)] == c.items && r.items[Len(c)] == x
  {
    Carueue(c.items + [x])
  }

  /** `carueue + other`: a new Carueue, filled by appending one at a time the
      receiver's items and then the operand's contribution. The receiver is a
      value here, so it is left unchanged by construction. */
  method Add<T>(c: Carueue<T>, other: Operand<T>) returns (r: Carueue<T>)
    ensures Len(r) == Len(c) + |Contribution(other)|
    ensures r.items[..Len(c)] == c.items
    ensures other.CarueueOperand? ==> r.items[Len(c)..] == other.carueue.items
    ensures other.ListOperand? ==> r.items[Len(c)..] == other.list
    ensures other.ObjectOperand? ==> r.items[Len(c)..] == [other.obj]
  {
    var all := c.items + Contribution(other);
    r := Carueue([]);
    var i := 0;
    while i < |all|
      invariant 0 <= i <= |all|
      invariant r.items == all[..i]
    {
      r := Append(r, all[i]);
      i := i + 1;
    }
    assert all[..|all|] == all;
  }

  /** `pop(index=None)`: removes `items[index]`, or the first item when no index
      is given, and returns it. The read comes first, so an out-of-range index
      (or an empty Carueue) raises IndexError before anything is deleted. */
  function Pop<T>(c: Carueue<T>, index: Option<int>): (r: Result<(T, Carueue<T>)>)
    ensures r.Err? ==> r.error == IndexError
    ensures index.None? ==> (r.Ok? <==> Len(c) > 0)
    ensures index.None? && r.Ok? ==> r.value.0 == c.items[0] && r.value.1.items == c.items[1..]
    ensures index.Some? ==> (r.Ok? <==> -|c.items| <= index.value < |c.items|)
    ensures index.Some? && r.Ok? ==>
      var k := Resolve(Len(c), index.value).value;
      && r.value.0 == c.items[k]
      && r.value.1.items == c.items[..k] + c.items[k + 1..]
  {
    var i := if index.Some? then index.value else 0;
    var x :- Get(c.items, i);
    Ok((x, Carueue(Delete(c.items, i).value)))
  }

  /** Popping shortens the Carueue by one, and putting the popped item back at
      its position restores it. */
  lemma PopThenReinsert<T>(c: Carueue<T>, index: Option<int>)
    requires Pop(c, index).Ok?
    ensures var (x, rest) := Pop(c, index).value;
      var k := Resolve(Len(c), if index.Some? then index.value else 0).value;
      && Len(rest) == Len(c) - 1
      && rest.items[..k] + [x] + rest.items[k..] == c.items
  {
    var (x, rest) := Pop(c, index).value;
    var k := Resolve(Len(c), if index.Some? then index.value else 0).value;
    var xs := c.items;
    assert x == xs[k] && rest.items == xs[..k] + xs[k + 1..];
    ReinsertAt(xs, k);
  }

  /** Deleting position k and inserting the deleted item back there gives the
      sequence back. */
  lemma ReinsertAt<T>(xs: seq<T>, k: nat)
    requires k < |xs|
    ensures var ys := xs[..k] + xs[k + 1..]; ys[..k] + [xs[k]] + ys[k..] == xs
  {
    var ys := xs[..k] + xs[k + 1..];
    assert ys[..k] == xs[..k];
    assert ys[k..] == xs[k + 1..];
  }

  /** First in, first out: a pop without index returns the item appended
      earliest. */
  lemma FifoOrder<T>(c: Carueue<T>, x: T)
    ensures Len(c) == 0 ==> Pop(Append(c, x), None) == Ok((x, c))
    ensures Len(c) > 0 ==> Pop(Append(c, x), None) == Ok((c.items[0], Append(Pop(c, None).value.1, x)))
  {
    if Len(c) > 0 {
      assert (c.items + [x])[1..] == c.items[1..] + [x];
    } else {
      assert (c.items + [x])[1..] == c.items;
    }
  }

  /** `remove(x)`: `del items[items.index(x)]`. */
  function Remove<T(==)>(c: Carueue<T>, x: T): (r: Result<Carueue<T>>)
    ensures r.Ok? <==> x in c.items
    ensures r.Err? ==> r.error == ValueError
    ensures r.Ok? ==> exists k :: FirstAt(c.items, x, k) && r.value.items == c.items[..k] + c.items[k + 1..]
  {
    var items :- PyLists.Remove(c.items, x);
    Ok(Carueue(items))
  }

  /** `contains(x)` */
  function Contains<T(==)>(c: Carueue<T>, x: T): (b: bool)
    ensures b <==> exists i :: 0 <= i < Len(c) && c.items[i] == x
  {
    x in c.items
  }

  /** An item is contained exactly when removing it succeeds, and removing it
      takes away exactly one copy. */
  lemma ContainsIffRemovable<T>(c: Carueue<T>, x: T)
    ensures Contains(c, x) <==> Remove(c, x).Ok?
    ensures Contains(c, x) ==> multiset(Remove(c, x).value.items) == multiset(c.items) - multiset{x}
    ensures Contains(c, x) ==> Len(Remove(c, x).value) == Len(c) - 1
  {
  }

  // ---------------------------------------------------------------------
  // Text helpers: `str.lower` and `str.replace(' ', '')`.
  // ---------------------------------------------------------------------

  /** `str.lower` on one ASCII character. */
  function LowerChar(ch: char): (lc: char) {
    if 'A' <= ch <= 'Z' then (ch as int + 32) as char else ch
  }

  /** `str.lower` on ASCII text, character by character. */
  function Lower(s: string): (r: string)
    ensures |r| == |s|
    ensures forall i :: 0 <= i < |s| ==> r[i] == LowerChar(s[i])
  {
    seq(|s|, i requires 0 <= i < |s| => LowerChar(s[i]))
  }

  /** Lower-casing twice is lower-casing once. */
  lemma LowerIdempotent(s: string)
    ensures Lower(Lower(s)) == Lower(s)
  {
  }

  /** `s.replace(' ', '')`: drops every space and keeps every other character. */
  function StripSpaces(s: string): (r: string)
    ensures ' ' !in r
    ensures forall ch :: ch != ' ' ==> multiset(r)[ch] == multiset(s)[ch]
    ensures |r| <= |s|
  {
    if s == [] then []
    else
      assert s == [s[0]] + s[1..];
      (if s[0] == ' ' then [] else [s[0]]) + StripSpaces(s[1..])
  }

  // ---------------------------------------------------------------------
  // is_permutation
  // ---------------------------------------------------------------------

  /** `word` and `test` have the same length and, ignoring case, the same
      characters with the same multiplicities. */
  predicate Permutation(word: string, test: string) {
    |word| == |test| && multiset(Lower(word)) == multiset(Lower(test))
  }

  /** Case does not matter to `Permutation`, and it is symmetric. */
  lemma PermutationIgnoresCase(word: string, test: string)
    ensures Permutation(word, test) <==> Permutation(Lower(word), Lower(test))
    ensures Permutation(word, test) <==> Permutation(test, word)
  {
    LowerIdempotent(word);
    LowerIdempotent(test);
  }

  /** A sub-multiset as large as its super-multiset equals it. */
  lemma {:induction false} SubMultisetOfSameSize<T>(a: multiset<T>, b: multiset<T>)
    requires a <= b && |a| == |b|
    ensures a == b
  {
    var d := b - a;
    assert b == a + d;
    assert |d| == 0;
  }

  /** `if letter in rest: rest.remove(letter)`: strikes out one copy of
      `letter`, if there is one. */
  function StrikeOut(rest: string, letter: char): (r: string)
    ensures multiset(r) == multiset(rest) - multiset{letter}
  {
    if letter in rest then PyLists.Remove(rest, letter).value else rest
  }

  /** Striking out one more letter of the prefix keeps `rest` equal to what the
      prefix has not struck out yet. */
  lemma StrikeOutStep(rest: string, t: multiset<char>, w: string, i: nat)
    requires i < |w|
    requires multiset(rest) == t - multiset(w[..i])
    ensures multiset(StrikeOut(rest, w[i])) == t - multiset(w[..i + 1])
  {
    assert w[..i + 1] == w[..i] + [w[i]];
  }

  /** Nothing is left once every letter of `w` is struck out of `t` exactly
      when, for equal sizes, `t` and `w` have the same letters. */
  lemma NothingLeft(t: multiset<char>, w: multiset<char>)
    requires |t| == |w|
    ensures t - w == multiset{} <==> t == w
  {
    if t - w == multiset{} {
      forall x | x in t
        ensures t[x] <= w[x]
      {
        assert (t - w)[x] == 0;
      }
      assert t <= w;
      SubMultisetOfSameSize(t, w);
    }
  }

  /** `is_permutation(word, test)`: False at once when the lengths differ;
      otherwise each letter of the lower-cased `word` strikes out one equal
      letter of the lower-cased `test`, if there is one left, and the answer is
      whether nothing of `test` remains. */
  method IsPermutation(word: string, test: string) returns (b: bool)
    ensures b <==> Permutation(word, test)
  {
    if |word| != |test| {
      return false;
    }
    var w := Lower(word);
    var rest := Lower(test);
    ghost var t := multiset(rest);
    assert |t| == |w|;
    var i := 0;
    while i < |w|
      invariant 0 <= i <= |w|
      invariant multiset(rest) == t - multiset(w[..i])
    {
      StrikeOutStep(rest, t, w, i);
      rest := StrikeOut(rest, w[i]);
      i := i + 1;
    }
    assert w[..|w|] == w;
    NothingLeft(t, multiset(w));
    b := rest == [];
  }

  // ---------------------------------------------------------------------
  // find_carmen
  // ---------------------------------------------------------------------

  /** The character of a decimal digit. */
  function DigitChar(d: nat): (ch: char)
    requires d < 10
    ensures '0' <= ch <= '9'
  {
    ('0' as int + d) as char
  }

  /** The value of a decimal digit character. */
  function DigitValue(ch: char): (d: nat)
    requires '0' <= ch <= '9'
    ensures d < 10 && DigitChar(d) == ch
  {
    ch as int - '0' as int
  }

  /** All characters are decimal digits. */
  predicate IsDigits(s: string) {
    forall i :: 0 <= i < |s| ==> '0' <= s[i] <= '9'
  }

  /** `str(n)` for a natural number. */
  function Decimal(n: nat): (s: string)
    ensures |s| >= 1 && IsDigits(s)
    ensures s[0] == '0' ==> n == 0
  {
    if n < 10 then [DigitChar(n)] else Decimal(n / 10) + [DigitChar(n % 10)]
  }

  /** The number a string of decimal digits denotes. */
  function ParseDecimal(s: string): (n: nat)
    requires IsDigits(s)
  {
    if s == [] then 0 else ParseDecimal(s[..|s| - 1]) * 10 + DigitValue(s[|s| - 1])
  }

  /** `Decimal` writes the number `ParseDecimal` reads back. */
  lemma {:induction false} DecimalRoundTrip(n: nat)
    ensures ParseDecimal(Decimal(n)) == n
  {
    var s := Decimal(n);
    if n >= 10 {
      assert s[..|s| - 1] == Decimal(n / 10);
      DecimalRoundTrip(n / 10);
    }
  }

  /** The English ordinal `find_carmen` prints for 0-based position `i`: "1st",
      "2nd", "3rd", then "4th", "5th", ... with "th" for every later position,
      so position 20 is "21th". */
  function Ordinal(i: nat): (o: string)
    ensures |o| >= 3
    ensures o[|o| - 2..] in {"st", "nd", "rd", "th"}
    ensures i < 3 ==> o[0] == DigitChar(i + 1) && |o| == 3
    ensures i < 3 ==> o[|o| - 2..] == ["st", "nd", "rd"][i]
  {
    if i == 0 then "1st"
    else if i == 1 then "2nd"
    else if i == 2 then "3rd"
    else Decimal(i + 1) + "th"
  }

  /** An ordinal is the 1-based position in decimal followed by a two-letter
      suffix, which is "th" from the fourth position on. */
  lemma OrdinalSpec(i: nat)
    ensures |Ordinal(i)| >= 3
    ensures var o := Ordinal(i);
      && IsDigits(o[..|o| - 2])
      && ParseDecimal(o[..|o| - 2]) == i + 1
      && o[0] != '0'
    ensures i >= 3 <==> Ordinal(i)[|Ordinal(i)| - 2..] == "th"
  {
    var o := Ordinal(i);
    if i >= 3 {
      assert o[..|o| - 2] == Decimal(i + 1);
      DecimalRoundTrip(i + 1);
    } else {
      assert o[..|o| - 2] == [DigitChar(i + 1)];
    }
  }

  /** The ordinal after "3rd" does not switch back to "st", "nd" or "rd". */
  lemma OrdinalsPastTwenty()
    ensures Ordinal(3) == "4th"
    ensures Ordinal(20) == "21th"
    ensures Ordinal(21) == "22th"
  {
  }

  /** `str(item).replace(' ', '')` is an anagram of "carmensandiego", ignoring
      case. */
  predicate IsCarmen(text: string) {
    Permutation(StripSpaces(text), "carmensandiego")
  }

  /** Position `k` holds the first item that is Carmen. */
  ghost predicate FirstCarmen<T>(items: seq<T>, show: T -> string, k: int) {
    && 0 <= k < |items|
    && IsCarmen(show(items[k]))
    && forall j :: 0 <= j < k ==> !IsCarmen(show(items[j]))
  }

  /** The line `find_carmen` prints when no item is Carmen. */
  const NotFound := "Failed to find Carmen Sandiego..."

  /** The line `find_carmen` prints when Carmen is at 0-based position `k`. */
  function FoundAt(k: nat): (m: string)
    ensures |m| == 28 + |Ordinal(k)|
    ensures m[19..|m| - 9] == Ordinal(k)
    ensures m != NotFound
  {
    "Carmen Sandiego is " + Ordinal(k) + " in line."
  }

  /** `find_carmen()`: scans the items front to back and reports the position
      of the first one whose text (`show` is `str`) is Carmen, or that there is
      none. The printed line is returned. */
  method FindCarmen<T>(c: Carueue<T>, show: T -> string) returns (message: string)
    ensures (forall k :: 0 <= k < Len(c) ==> !IsCarmen(show(c.items[k]))) ==> message == NotFound
    ensures forall k :: FirstCarmen(c.items, show, k) ==> message == FoundAt(k)
  {
    var i := 0;
    while i < |c.items|
      invariant 0 <= i <= |c.items|
      invariant forall j :: 0 <= j < i ==> !IsCarmen(show(c.items[j]))
    {
      var found := IsPermutation(StripSpaces(show(c.items[i])), "carmensandiego");
      if found {
        assert FirstCarmen(c.items, show, i);
        assert forall k :: FirstCarmen(c.items, show, k) ==> k == i;
        return FoundAt(i);
      }
      i := i + 1;
    }
    return NotFound;
  }

  /** The two messages are told apart, so the message determines whether Carmen
      was found, and where. */
  lemma MessagesDistinct(k: nat, k': nat)
    ensures FoundAt(k) != NotFound
    ensures FoundAt(k) == FoundAt(k') ==> k == k'
  {
    assert FoundAt(k)[0] == 'C' != NotFound[0];
    if FoundAt(k) == FoundAt(k') {
      var p := "Carmen Sandiego is ";
      var s := " in line.";
      assert Ordinal(k) == FoundAt(k)[|p|..|FoundAt(k)| - |s|];
      assert Ordinal(k') == FoundAt(k')[|p|..|FoundAt(k')| - |s|];
      OrdinalSpec(k);
      OrdinalSpec(k');
    }
  }

  /** Stripping spaces distributes over concatenation. */
  lemma {:induction false} StripSpacesAppend(a: string, b: string)
    ensures StripSpaces(a + b) == StripSpaces(a) + StripSpaces(b)
  {
    if a == [] {
      assert a + b == b;
    } else {
      assert (a + b)[0] == a[0] && (a + b)[1..] == a[1..] + b;
      StripSpacesAppend(a[1..], b);
    }
  }

  /** Lower-casing neither creates nor removes spaces, so it commutes with
      stripping them. */
  lemma {:induction false} StripSpacesLower(s: string)
    ensures StripSpaces(Lower(s)) == Lower(StripSpaces(s))
  {
    if s != [] {
      assert Lower(s)[1..] == Lower(s[1..]);
      StripSpacesLower(s[1..]);
      assert Lower(StripSpaces(s)) == Lower(if s[0] == ' ' then [] else [s[0]]) + Lower(StripSpaces(s[1..]));
    }
  }

  /** Whether an item is Carmen disregards spaces anywhere in its text. */
  lemma CarmenIgnoresSpaces(a: string, b: string)
    ensures IsCarmen(a + " " + b) <==> IsCarmen(a + b)
  {
    SpaceVanishes(a, b);
  }

  /** A space between two texts disappears when spaces are stripped. */
  lemma SpaceVanishes(a: string, b: string)
    ensures StripSpaces(a + " " + b) == StripSpaces(a + b)
  {
    var sa := StripSpaces(a);
    assert StripSpaces(a + " ") == sa by {
      StripSpacesAppend(a, " ");
      assert StripSpaces(" ") == [];
      assert sa + [] == sa;
    }
    StripSpacesAppend(a + " ", b);
    StripSpacesAppend(a, b);
  }

  /** Whether an item is Carmen disregards the case of its letters. */
  lemma CarmenIgnoresCase(a: string)
    ensures IsCarmen(Lower(a)) <==> IsCarmen(a)
  {
    var t := StripSpaces(a);
    StripSpacesLower(a);
    LowerIdempotent(t);
    assert multiset(Lower(StripSpaces(Lower(a)))) == multiset(Lower(t));
  }
}

=== FILE: dll_chain.dfy ===
/** Data model of doublylinkedlist.py: nodes live in an arena indexed by node
    identity, and a list is a head reference, a tail reference and the arena.
    The abstraction `Chain` recovers the nodes reachable from the head in order,
    and `Items` the payloads they carry. */
module DllChain {
  import opened Exceptions

  /** Identity of a node object. */
  type NodeId = nat

  /** A `Node`: its payload and its `prev_node` / `next_node` references. */
  datatype Node<T> = Node(item: T, prev: Option<NodeId>, next: Option<NodeId>)

  /** A `DoublyLinkedList`. `nextId` is the identity the next node created will get;
      nodes that are no longer reachable stay in the arena, as unreachable objects
      do until they are collected. */
  datatype DList<T> = DList(nodes: map<NodeId, Node<T>>, head: Option<NodeId>, tail: Option<NodeId>, nextId: NodeId)

  /** `p` is None or refers to an existing node. */
  ghost predicate Refers<T>(nodes: map<NodeId, Node<T>>, p: Option<NodeId>) {
    p.Some? ==> p.value in nodes
  }

  /** Every reference held by the list or by any node designates an existing node,
      and `nextId` is beyond every identity in use. This holds of any Python object
      graph, whether or not the links are consistent. */
  ghost predicate Closed<T>(l: DList<T>) {
    && (forall id :: id in l.nodes ==> id < l.nextId)
    && Refers(l.nodes, l.head)
    && Refers(l.nodes, l.tail)
    && (forall id :: id in l.nodes ==> Refers(l.nodes, l.nodes[id].prev) && Refers(l.nodes, l.nodes[id].next))
  }

  /** `s` is the sequence of distinct nodes reached from `head` by following
      `next_node` until it is None. */
  ghost predicate Linked<T>(l: DList<T>, s: seq<NodeId>) {
    && (forall i :: 0 <= i < |s| ==> s[i] in l.nodes)
    && (forall i, j :: 0 <= i < j < |s| ==> s[i] != s[j])
    && l.head == (if s == [] then None else Some(s[0]))
    && (s != [] ==> l.nodes[s[|s| - 1]].next == None)
    && (forall i :: 0 <= i < |s| - 1 ==> l.nodes[s[i]].next == Some(s[i + 1]))
  }

  /** The backward references agree with the forward chain `s`: the tail is its
      last node, the head has no `prev_node`, and `A.next == B` exactly when `B.prev == A`. */
  ghost predicate BackLinked<T>(l: DList<T>, s: seq<NodeId>)
    requires forall i :: 0 <= i < |s| ==> s[i] in l.nodes
  {
    && l.tail == (if s == [] then None else Some(s[|s| - 1]))
    && (s != [] ==> l.nodes[s[0]].prev == None)
    && (forall i :: 0 < i < |s| ==> l.nodes[s[i]].prev == Some(s[i - 1]))
  }

  /** Following `next_node` from the head terminates without revisiting a node. */
  ghost predicate Traversable<T>(l: DList<T>) {
    exists s :: Linked(l, s)
  }

  /** The nodes from head to the end of the forward chain. */
  ghost function Chain<T>(l: DList<T>): (s: seq<NodeId>)
    requires Traversable(l)
    ensures Linked(l, s)
  {
    var s :| Linked(l, s); s
  }

  /** The list's invariants: an acyclic forward chain whose backward links and
      tail reference are consistent with it. */
  ghost predicate Valid<T>(l: DList<T>) {
    Closed(l) && Traversable(l) && BackLinked(l, Chain(l))
  }

  /** Payloads of the nodes `s`, in order. */
  ghost function View<T>(nodes: map<NodeId, Node<T>>, s: seq<NodeId>): (v: seq<T>)
    requires forall i :: 0 <= i < |s| ==> s[i] in nodes
    ensures |v| == |s|
    ensures forall i :: 0 <= i < |s| ==> v[i] == nodes[s[i]].item
  {
    seq(|s|, i requires 0 <= i < |s| => nodes[s[i]].item)
  }

  /** The list's contents from head to tail: what `py_list` shows. */
  ghost function Items<T>(l: DList<T>): (v: seq<T>)
    requires Traversable(l)
  {
    View(l.nodes, Chain(l))
  }

  /** Two forward chains of the same list agree position by position. */
  lemma {:induction false} LinkedAgree<T>(l: DList<T>, s1: seq<NodeId>, s2: seq<NodeId>, k: nat)
    requires Linked(l, s1) && Linked(l, s2)
    requires k < |s1| && k < |s2|
    ensures s1[k] == s2[k]
    decreases k
  {
    if k > 0 {
      LinkedAgree(l, s1, s2, k - 1);
      assert l.nodes[s1[k - 1]].next == Some(s1[k]);
      assert l.nodes[s2[k - 1]].next == Some(s2[k]);
    }
  }

  /** The forward chain of a list is unique. */
  lemma LinkedUnique<T>(l: DList<T>, s1: seq<NodeId>, s2: seq<NodeId>)
    requires Linked(l, s1) && Linked(l, s2)
    ensures s1 == s2
  {
    if |s1| < |s2| {
      if |s1| > 0 {
        assert l.nodes[s2[|s1| - 1]].next == Some(s2[|s1|]);
        LinkedAgree(l, s1, s2, |s1| - 1);
      }
      assert false;
    } else if |s2| < |s1| {
      if |s2| > 0 {
        assert l.nodes[s1[|s2| - 1]].next == Some(s1[|s2|]);
        LinkedAgree(l, s1, s2, |s2| - 1);
      }
      assert false;
    }
    forall k | 0 <= k < |s1|
      ensures s1[k] == s2[k]
    {
      LinkedAgree(l, s1, s2, k);
    }
  }

  /** Any forward chain is the chain. */
  lemma ChainIs<T>(l: DList<T>, s: seq<NodeId>)
    requires Linked(l, s)
    ensures Traversable(l) && Chain(l) == s
    ensures Items(l) == View(l.nodes, s)
  {
    LinkedUnique(l, Chain(l), s);
  }

  /** A chained node is an allocated node, hence its identity is below `nextId`. */
  lemma ChainBelowFresh<T>(l: DList<T>)
    requires Closed(l) && Traversable(l)
    ensures forall i :: 0 <= i < |Chain(l)| ==> Chain(l)[i] < l.nextId
  {
  }
}

=== FILE: doublylinkedlist.dfy ===
/** The operations of `DoublyLinkedList` (doublylinkedlist.py) over the arena
    model of `DllChain`. Operations without a loop are functions whose meaning
    is stated by a `...Spec` lemma in terms of `Items`; the operations the source
    writes as a `while` loop over the chain are methods with that loop. */
module DoublyLinkedLists {
  import opened Exceptions
  import opened DllChain

  /* ---------------------------------------------------------------------- */
  /* Link surgery shared by the operations                                   */
  /* ---------------------------------------------------------------------- */

  /** `id.next_node = p` */
  function SetNext<T>(l: DList<T>, id: NodeId, p: Option<NodeId>): (r: DList<T>)
    requires id in l.nodes
    ensures r.nodes.Keys == l.nodes.Keys && r.head == l.head && r.tail == l.tail && r.nextId == l.nextId
    ensures Closed(l) && Refers(l.nodes, p) ==> Closed(r)
  {
    l.(nodes := l.nodes[id := l.nodes[id].(next := p)])
  }

  /** `id.prev_node = p` */
  function SetPrev<T>(l: DList<T>, id: NodeId, p: Option<NodeId>): (r: DList<T>)
    requires id in l.nodes
    ensures r.nodes.Keys == l.nodes.Keys && r.head == l.head && r.tail == l.tail && r.nextId == l.nextId
    ensures Closed(l) && Refers(l.nodes, p) ==> Closed(r)
  {
    l.(nodes := l.nodes[id := l.nodes[id].(prev := p)])
  }

  /** `id.item = v` */
  function Relabel<T>(l: DList<T>, id: NodeId, v: T): (r: DList<T>)
    requires id in l.nodes
    ensures r.nodes.Keys == l.nodes.Keys && r.head == l.head && r.tail == l.tail && r.nextId == l.nextId
    ensures Closed(l) ==> Closed(r)
  {
    l.(nodes := l.nodes[id := l.nodes[id].(item := v)])
  }

  /* ---------------------------------------------------------------------- */
  /* Construction                                                            */
  /* ---------------------------------------------------------------------- */

  /** `DoublyLinkedList(*xs)`: one fresh node per argument, each linked to its
      neighbours; head and tail are the first and last node, or None. */
  function FromSeq<T>(xs: seq<T>): (l: DList<T>)
    ensures Closed(l)
  {
    var n := |xs|;
    DList(map id: NodeId | id < n :: Node(xs[id], if id > 0 then Some(id - 1) else None, if id + 1 < n then Some(id + 1) else None),
          if n > 0 then Some(0) else None,
          if n > 0 then Some(n - 1) else None,
          n)
  }

  /** Node identities 0 .. n-1 in order. */
  function Ids(n: nat): (s: seq<NodeId>)
    ensures |s| == n && forall i :: 0 <= i < n ==> s[i] == i
  {
    seq(n, i requires 0 <= i < n => i as NodeId)
  }

  /** Node i of a construction holds argument i and links to nodes i-1 and i+1
      where they exist. */
  lemma FromSeqNode<T>(xs: seq<T>, i: nat)
    requires i < |xs|
    ensures var l := FromSeq(xs);
      && i in l.nodes
      && l.nodes[i].item == xs[i]
      && l.nodes[i].prev == (if i > 0 then Some(i - 1) else None)
      && l.nodes[i].next == (if i + 1 < |xs| then Some(i + 1) else None)
  {
  }

  /** The nodes a construction creates are chained in argument order. */
  lemma FromSeqChain<T>(xs: seq<T>)
    ensures var l := FromSeq(xs);
      && Linked(l, Ids(|xs|))
      && BackLinked(l, Ids(|xs|))
      && View(l.nodes, Ids(|xs|)) == xs
  {
    FromSeqLinked(xs);
    FromSeqBackLinked(xs);
  }

  /** Every node of a construction, by position. */
  lemma FromSeqNodes<T>(xs: seq<T>)
    ensures var l := FromSeq(xs); var n := |xs|; var s := Ids(n);
      forall i :: 0 <= i < n ==>
        && s[i] in l.nodes && l.nodes[s[i]].item == xs[i]
        && l.nodes[s[i]].prev == (if i > 0 then Some(s[i - 1]) else None)
        && l.nodes[s[i]].next == (if i + 1 < n then Some(s[i + 1]) else None)
  {
    var l := FromSeq(xs);
    var n := |xs|;
    var s := Ids(n);
    forall i | 0 <= i < n
      ensures s[i] in l.nodes && l.nodes[s[i]].item == xs[i]
      ensures l.nodes[s[i]].prev == (if i > 0 then Some(s[i - 1]) else None)
      ensures l.nodes[s[i]].next == (if i + 1 < n then Some(s[i + 1]) else None)
    {
      FromSeqNode(xs, i);
    }
  }

  /** The forward links of a construction follow argument order. */
  lemma FromSeqLinked<T>(xs: seq<T>)
    ensures Linked(FromSeq(xs), Ids(|xs|))
  {
    FromSeqNodes(xs);
  }

  /** The backward links of a construction agree, and the nodes carry the
      arguments. */
  lemma FromSeqBackLinked<T>(xs: seq<T>)
    ensures forall i :: 0 <= i < |xs| ==> Ids(|xs|)[i] in FromSeq(xs).nodes
    ensures BackLinked(FromSeq(xs), Ids(|xs|)) && View(FromSeq(xs).nodes, Ids(|xs|)) == xs
  {
    FromSeqNodes(xs);
  }

  /** Construction yields a well-formed list holding the arguments in order. */
  lemma FromSeqSpec<T>(xs: seq<T>)
    ensures Valid(FromSeq(xs)) && Items(FromSeq(xs)) == xs
  {
    FromSeqChain(xs);
    ChainIs(FromSeq(xs), Ids(|xs|));
  }

  /** Head and tail of a construction are its first and last node, and both
      None for no arguments. */
  lemma FromSeqEnds<T>(xs: seq<T>)
    ensures var l := FromSeq(xs);
      && Valid(l)
      && (xs == [] ==> l.head.None? && l.tail.None?)
      && |Chain(l)| == |xs|
      && (xs != [] ==> l.head == Some(Chain(l)[0]) && l.tail == Some(Chain(l)[|Chain(l)| - 1]))
  {
    var l := FromSeq(xs);
    var s := Ids(|xs|);
    FromSeqChain(xs);
    ChainIs(l, s);
    assert Chain(l) == s;
    assert Linked(l, s) && BackLinked(l, s);
  }

  /* ---------------------------------------------------------------------- */
  /* Indexed access                                                          */
  /* ---------------------------------------------------------------------- */

  /** `__getitem__`: walks the chain counting positions. A negative index never
      matches, falls off the end and is not `>= i`, so the call returns None. */
  method GetItem<T>(l: DList<T>, index: int) returns (r: Result<Option<T>>)
    requires Traversable(l)
    ensures 0 <= index < |Items(l)| ==> r == Ok(Some(Items(l)[index]))
    ensures index >= |Items(l)| ==> r == Err(IndexError)
    ensures index < 0 ==> r == Ok(None)
  {
    ghost var s := Chain(l);
    var i := 0;
    var link := l.head;
    while link.Some?
      invariant 0 <= i <= |s|
      invariant link == if i < |s| then Some(s[i]) else None
      invariant index < 0 || index >= i
      decreases |s| - i
    {
      if index == i {
        return Ok(Some(l.nodes[link.value].item));
      }
      link := l.nodes[link.value].next;
      i := i + 1;
    }
    if index >= i {
      return Err(IndexError);
    }
    return Ok(None);
  }

  /** Relabelling a chained node keeps the chain and changes one item. */
  lemma RelabelSpec<T>(l: DList<T>, k: nat, v: T)
    requires Traversable(l) && k < |Chain(l)|
    ensures var r := Relabel(l, Chain(l)[k], v);
      && Traversable(r)
      && Chain(r) == Chain(l)
      && Items(r) == Items(l)[k := v]
      && (Valid(l) ==> Valid(r))
  {
    var s := Chain(l);
    var r := Relabel(l, s[k], v);
    assert Linked(r, s);
    ChainIs(r, s);
    assert Items(r) == Items(l)[k := v];
  }

  /** `__setitem__`: walks the whole chain, replacing the item at the matching
      position; the error for `index >= len` is raised only after the walk, so it
      leaves the list untouched. A negative index is a silent no-op. */
  method SetItem<T>(l: DList<T>, index: int, v: T) returns (r: Result<DList<T>>)
    requires Traversable(l)
    ensures 0 <= index < |Items(l)| ==>
      && r.Ok?
      && Traversable(r.value)
      && Chain(r.value) == Chain(l)
      && Items(r.value) == Items(l)[index := v]
      && (Valid(l) ==> Valid(r.value))
    ensures index >= |Items(l)| ==> r == Err(IndexError)
    ensures index < 0 ==> r == Ok(l)
  {
    ghost var s := Chain(l);
    var cur := l;
    var i := 0;
    var link := l.head;
    while link.Some?
      invariant 0 <= i <= |s|
      invariant link == if i < |s| then Some(s[i]) else None
      invariant cur == if 0 <= index < i then Relabel(l, s[index], v) else l
      decreases |s| - i
    {
      if i == index {
        cur := Relabel(cur, link.value, v);
      }
      link := cur.nodes[link.value].next;
      i := i + 1;
    }
    if index >= i {
      return Err(IndexError);
    }
    if 0 <= index {
      RelabelSpec(l, index, v);
    }
    return Ok(cur);
  }

  /* ---------------------------------------------------------------------- */
  /* Appending                                                               */
  /* ---------------------------------------------------------------------- */

  /** `append_left`: a fresh node becomes the head; the old head points back to
      it, and an empty list's tail is set to it too. */
  function AppendLeft<T>(l: DList<T>, v: T): (r: DList<T>)
    requires Closed(l)
    ensures Closed(r)
  {
    var id := l.nextId;
    var nodes := if l.head.Some? then l.nodes[l.head.value := l.nodes[l.head.value].(prev := Some(id))] else l.nodes;
    DList(nodes[id := Node(v, None, l.head)], Some(id), if l.tail.None? then Some(id) else l.tail, id + 1)
  }

  lemma AppendLeftSpec<T>(l: DList<T>, v: T)
    requires Valid(l)
    ensures var r := AppendLeft(l, v);
      && Valid(r)
      && Chain(r) == [l.nextId] + Chain(l)
      && Items(r) == [v] + Items(l)
      && (Items(l) == [] ==> r.tail == r.head)
      && (Items(l) != [] ==> r.tail == l.tail)
  {
    var r := AppendLeft(l, v);
    var s := Chain(l);
    var s': seq<NodeId> := [l.nextId] + s;
    AppendLeftChain(l, v);
    var xs, ys := Items(l), Items(r);
    forall i | 0 <= i < |ys|
      ensures ys[i] == ([v] + xs)[i]
    {
      if 0 < i {
        assert s'[i] == s[i - 1];
      }
    }
    assert ys == [v] + xs;
    assert BackLinked(r, s');
  }

  /** The forward chain part of `AppendLeftSpec`. */
  lemma AppendLeftChain<T>(l: DList<T>, v: T)
    requires Valid(l)
    ensures Traversable(AppendLeft(l, v)) && Chain(AppendLeft(l, v)) == [l.nextId] + Chain(l)
    ensures forall i :: 0 <= i < |Chain(l)| ==> AppendLeft(l, v).nodes[Chain(l)[i]].item == l.nodes[Chain(l)[i]].item
  {
    var r := AppendLeft(l, v);
    var s := Chain(l);
    var s': seq<NodeId> := [l.nextId] + s;
    ChainBelowFresh(l);
    forall i | 0 <= i < |s'|
      ensures s'[i] in r.nodes
      ensures 0 < i ==> s'[i] == s[i - 1] && s'[i] < l.nextId
    {
    }
    forall i | 0 <= i < |s'| - 1
      ensures r.nodes[s'[i]].next == Some(s'[i + 1])
    {
      if 0 < i {
        assert l.nodes[s[i - 1]].next == Some(s[i]);
      }
    }
    assert Linked(r, s');
    ChainIs(r, s');
  }

  /** `append_right`: a fresh node becomes the tail; the old tail points forward
      to it, and an empty list's head is set to it too. */
  function AppendRight<T>(l: DList<T>, v: T): (r: DList<T>)
    requires Closed(l)
    ensures Closed(r)
  {
    var id := l.nextId;
    var nodes := if l.tail.Some? then l.nodes[l.tail.value := l.nodes[l.tail.value].(next := Some(id))] else l.nodes;
    DList(nodes[id := Node(v, l.tail, None)], if l.head.None? then Some(id) else l.head, Some(id), id + 1)
  }

  lemma AppendRightSpec<T>(l: DList<T>, v: T)
    requires Closed(l)
    ensures var r := AppendRight(l, v);
      Valid(l) ==>
        && Valid(r)
        && Chain(r) == Chain(l) + [l.nextId]
        && Items(r) == Items(l) + [v]
        && (Items(l) == [] ==> r.head == r.tail)
        && (Items(l) != [] ==> r.head == l.head)
  {
    if Valid(l) {
      var r := AppendRight(l, v);
      var s := Chain(l);
      var s' := s + [l.nextId];
      ChainBelowFresh(l);
      assert Linked(r, s');
      ChainIs(r, s');
      assert BackLinked(r, s');
      assert Items(r) == Items(l) + [v];
    }
  }

  /** `append` is `append_right`. */
  function Append<T>(l: DList<T>, v: T): (r: DList<T>)
    requires Closed(l)
    ensures Closed(r)
    ensures Valid(l) ==> Valid(r) && Items(r) == Items(l) + [v]
  {
    AppendRightSpec(l, v); AppendRight(l, v)
  }

  /* ---------------------------------------------------------------------- */
  /* Removing from either end                                                */
  /* ---------------------------------------------------------------------- */

  /** `pop_left` as written: the head moves to its successor, whose `prev_node`
      is cleared. The tail is never touched, so popping the only node leaves the
      tail designating the removed node. */
  function PopLeft<T>(l: DList<T>): (r: Result<DList<T>>)
    requires Closed(l)
    ensures r.Ok? ==> Closed(r.value) && r.value.nodes.Keys == l.nodes.Keys && r.value.tail == l.tail
  {
    if l.head.None? then Err(IndexError)
    else
      var h := l.nodes[l.head.value].next;
      if h.Some? then Ok(SetPrev(l, h.value, None).(head := h)) else Ok(l.(head := None))
  }

  /** `pop_left` as evidently intended (and as `pop_right` does for its end):
      popping the only node clears the tail as well as the head. */
  function PopLeftIntended<T>(l: DList<T>): (r: Result<DList<T>>)
    requires Closed(l)
    ensures r.Ok? ==> Closed(r.value) && r.value.nodes.Keys == l.nodes.Keys
  {
    if l.head.None? then Err(IndexError)
    else
      var h := l.nodes[l.head.value].next;
      if h.Some? then Ok(SetPrev(l, h.value, None).(head := h)) else Ok(l.(head := None, tail := None))
  }

  /** Dropping the first node of a chain of two or more nodes. */
  lemma DropFirst<T>(l: DList<T>)
    requires Valid(l) && |Chain(l)| >= 2
    ensures var s := Chain(l); var r := SetPrev(l, s[1], None).(head := Some(s[1]));
      && l.nodes[s[0]].next == Some(s[1])
      && Valid(r)
      && Chain(r) == s[1..]
      && Items(r) == Items(l)[1..]
  {
    var s := Chain(l);
    var r := SetPrev(l, s[1], None).(head := Some(s[1]));
    var s' := s[1..];
    assert Linked(r, s');
    ChainIs(r, s');
    assert BackLinked(r, s');
  }

  /** `pop_left` on an empty list raises IndexError; otherwise the remaining
      nodes are the old ones after the first, in order, and the tail is kept.
      With two or more nodes the result is a well-formed list; with one node the
      head becomes None while the tail still designates the popped node, which
      breaks the list's invariant. */
  lemma PopLeftSpec<T>(l: DList<T>)
    requires Valid(l)
    ensures var n := |Items(l)|; var r := PopLeft(l);
      && (r.Err? <==> n == 0)
      && (r.Err? ==> r.error == IndexError)
      && (r.Ok? ==> Traversable(r.value) && Chain(r.value) == Chain(l)[1..] && Items(r.value) == Items(l)[1..] && r.value.tail == l.tail)
      && (n >= 2 ==> Valid(r.value))
      && (n == 1 ==> r.value.head.None? && r.value.tail.Some? && !Valid(r.value))
  {
    var s := Chain(l);
    if |s| >= 2 {
      DropFirst(l);
    } else if |s| == 1 {
      var r := PopLeft(l).value;
      assert Linked(r, []);
      ChainIs(r, []);
    }
  }

  /** The intended `pop_left` keeps the list well formed for every non-empty list. */
  lemma PopLeftIntendedSpec<T>(l: DList<T>)
    requires Valid(l)
    ensures var n := |Items(l)|; var r := PopLeftIntended(l);
      && (r.Err? <==> n == 0)
      && (r.Err? ==> r.error == IndexError)
      && (r.Ok? ==> Valid(r.value) && Chain(r.value) == Chain(l)[1..] && Items(r.value) == Items(l)[1..])
      && (n == 1 ==> r.value.head.None? && r.value.tail.None?)
  {
    var s := Chain(l);
    if |s| >= 2 {
      DropFirst(l);
    } else if |s| == 1 {
      var r := PopLeftIntended(l).value;
      assert Linked(r, []);
      ChainIs(r, []);
    }
  }

  /** The two versions of `pop_left` differ only when the list has a single node. */
  lemma PopLeftAgreesOnLongerLists<T>(l: DList<T>)
    requires Valid(l)
    ensures PopLeft(l) == PopLeftIntended(l) <==> |Items(l)| != 1
  {
    PopLeftSpec(l);
    PopLeftIntendedSpec(l);
  }

  /** `pop_right`: an empty list raises IndexError; a list whose head is its
      tail is emptied; otherwise the tail moves to its predecessor, whose
      `next_node` is cleared. A tail without predecessor (only possible once the
      links are broken) fails on the attribute access of None. */
  function PopRight<T>(l: DList<T>): (r: Result<DList<T>>)
    requires Closed(l)
    ensures r.Ok? ==> Closed(r.value) && r.value.nodes.Keys == l.nodes.Keys
  {
    if l.head.None? then Err(IndexError)
    else if l.head == l.tail then Ok(l.(head := None, tail := None))
    else if l.tail.None? || l.nodes[l.tail.value].prev.None? then Err(AttributeError)
    else
      var t := l.nodes[l.tail.value].prev.value;
      Ok(SetNext(l, t, None).(tail := Some(t)))
  }

  /** The list `pop_right` leaves behind when it raises AttributeError. With no
      tail, reading `self.tail.prev_node` raises before anything changes. With a
      tail that has no predecessor, `self.tail` is first set to that missing
      predecessor, None, and only the write to its `next_node` raises; the
      object keeps its head and loses its tail. */
  function PopRightRaisedState<T>(l: DList<T>): (r: DList<T>)
    requires Closed(l) && PopRight(l) == Err(AttributeError)
    ensures r.nodes == l.nodes && r.head == l.head && r.head.Some?
    ensures r.tail.None?
    ensures Closed(r)
    ensures l.tail.Some? ==> r != l
  {
    if l.tail.None? then l else l.(tail := None)
  }

  /** Dropping the last node of a chain of two or more nodes. */
  lemma DropLast<T>(l: DList<T>)
    requires Valid(l) && |Chain(l)| >= 2
    ensures var s := Chain(l); var n := |s|; var r := SetNext(l, s[n - 2], None).(tail := Some(s[n - 2]));
      && l.nodes[s[n - 1]].prev == Some(s[n - 2])
      && Valid(r)
      && Chain(r) == s[..n - 1]
      && Items(r) == Items(l)[..n - 1]
  {
    var s := Chain(l);
    var n := |s|;
    var r := SetNext(l, s[n - 2], None).(tail := Some(s[n - 2]));
    var s' := s[..n - 1];
    assert Linked(r, s');
    ChainIs(r, s');
    assert BackLinked(r, s');
  }

  /** `pop_right` on an empty list raises IndexError; otherwise the result is a
      well-formed list of the old nodes but the last, and a one-element list
      ends with head and tail both None. */
  lemma PopRightSpec<T>(l: DList<T>)
    requires Valid(l)
    ensures var n := |Items(l)|; var r := PopRight(l);
      && (r.Err? <==> n == 0)
      && (r.Err? ==> r.error == IndexError)
      && (r.Ok? ==> Valid(r.value) && Chain(r.value) == Chain(l)[..n - 1] && Items(r.value) == Items(l)[..n - 1])
      && (n == 1 ==> r.value.head.None? && r.value.tail.None?)
  {
    var s := Chain(l);
    if |s| >= 2 {
      assert s[0] != s[|s| - 1];
      DropLast(l);
    } else if |s| == 1 {
      var r := PopRight(l).value;
      assert Linked(r, []);
      ChainIs(r, []);
    }
  }

  /* ---------------------------------------------------------------------- */
  /* Removing by position                                                    */
  /* ---------------------------------------------------------------------- */

  /** The splice `pop(index)` performs on the node `id` it has reached: the
      predecessor skips it (or, at the head, `pop_left` runs) and the successor
      points back past it (or, at the tail, `pop_right` runs). The node itself
      keeps its own links. The corrected `pop_left` is used. On a well-formed
      list `pop(index)` reaches the head only with two or more nodes, where both
      versions agree (`PopLeftAgreesOnLongerLists`). On a list broken by `pop_left`
      it can reach a head without successor. The following `pop_right` then
      raises IndexError with either version, so the result is the same on every
      traversable list (`UnlinkAgreesWithAsWritten`). */
  function Unlink<T>(l: DList<T>, id: NodeId): (r: Result<DList<T>>)
    requires Closed(l) && id in l.nodes
    ensures r.Ok? ==> Closed(r.value) && r.value.nodes.Keys == l.nodes.Keys
  {
    var node := l.nodes[id];
    var l1 :- if node.prev.Some? then Ok(SetNext(l, node.prev.value, node.next)) else PopLeftIntended(l);
    if node.next.Some? then Ok(SetPrev(l1, node.next.value, node.prev)) else PopRight(l1)
  }

  /** The splice of `pop(index)` with `pop_left` as written. */
  function UnlinkAsWritten<T>(l: DList<T>, id: NodeId): (r: Result<DList<T>>)
    requires Closed(l) && id in l.nodes
    ensures r.Ok? ==> Closed(r.value) && r.value.nodes.Keys == l.nodes.Keys
  {
    var node := l.nodes[id];
    var l1 :- if node.prev.Some? then Ok(SetNext(l, node.prev.value, node.next)) else PopLeft(l);
    if node.next.Some? then Ok(SetPrev(l1, node.next.value, node.prev)) else PopRight(l1)
  }

  /** At any node on the forward chain of any traversable object graph, well
      formed or not, the splice gives the same result with either version of
      `pop_left`. They differ only when the head has no successor. The chain is
      then the head alone, so the node is the head, without successor, and
      `pop_right` raises IndexError on the emptied list either way. */
  lemma UnlinkAgreesWithAsWritten<T>(l: DList<T>, id: NodeId)
    requires Closed(l) && Traversable(l) && id in Chain(l)
    ensures UnlinkAsWritten(l, id) == Unlink(l, id)
  {
    var s := Chain(l);
    var node := l.nodes[id];
    if node.prev.None? && l.nodes[s[0]].next.None? {
      HeadLeadsOn(l);
      assert id == s[0];
    }
  }

  /** On a chain of two or more nodes the head's successor is the second node. */
  lemma HeadLeadsOn<T>(l: DList<T>)
    requires Traversable(l)
    ensures var s := Chain(l); |s| >= 2 ==> l.nodes[s[0]].next == Some(s[1])
  {
  }

  /** What every case of `UnlinkSpec` establishes. */
  ghost predicate Unlinked<T>(l: DList<T>, k: nat, r: Result<DList<T>>)
    requires Valid(l) && k < |Chain(l)|
  {
    var s := Chain(l);
    && r.Ok?
    && Valid(r.value)
    && Chain(r.value) == s[..k] + s[k + 1..]
    && Items(r.value) == Items(l)[..k] + Items(l)[k + 1..]
    && r.value.nodes.Keys == l.nodes.Keys
    && (forall j :: k <= j < |s| ==> r.value.nodes[s[j]].next == l.nodes[s[j]].next)
  }

  lemma UnlinkHead<T>(l: DList<T>)
    requires Valid(l) && 2 <= |Chain(l)|
    ensures Unlinked(l, 0, Unlink(l, Chain(l)[0]))
  {
    var s := Chain(l);
    DropFirst(l);
    var l1 := SetPrev(l, s[1], None).(head := Some(s[1]));
    assert PopLeftIntended(l) == Ok(l1);
    assert l1.nodes[s[1]].(prev := None) == l1.nodes[s[1]];
    assert SetPrev(l1, s[1], None) == l1;
    assert Unlink(l, s[0]) == Ok(l1);
    assert s[..0] + s[1..] == s[1..];
    assert Items(l)[..0] + Items(l)[1..] == Items(l)[1..];
  }

  lemma UnlinkTail<T>(l: DList<T>)
    requires Valid(l) && 2 <= |Chain(l)|
    ensures Unlinked(l, |Chain(l)| - 1, Unlink(l, Chain(l)[|Chain(l)| - 1]))
  {
    var s := Chain(l);
    var n := |s|;
    DropLast(l);
    assert s[0] != s[n - 1];
    var l1 := SetNext(l, s[n - 2], None);
    assert l1.nodes[s[n - 1]].prev == Some(s[n - 2]);
    assert l1.nodes[s[n - 2]].(next := None) == l1.nodes[s[n - 2]];
    assert SetNext(l1, s[n - 2], None) == l1;
    assert PopRight(l1) == Ok(l1.(tail := Some(s[n - 2])));
    assert Unlink(l, s[n - 1]) == Ok(l1.(tail := Some(s[n - 2])));
    assert s[..n - 1] + s[n..] == s[..n - 1];
    assert Items(l)[..n - 1] + Items(l)[n..] == Items(l)[..n - 1];
  }

  /** Deleting position k of a sequence of distinct elements shifts the later
      ones down by one and keeps the elements distinct. */
  lemma DeleteDistinct<T>(s: seq<T>, k: nat)
    requires k < |s| && forall i, j :: 0 <= i < j < |s| ==> s[i] != s[j]
    ensures var s' := s[..k] + s[k + 1..];
      && |s'| == |s| - 1
      && (forall i :: 0 <= i < k ==> s'[i] == s[i])
      && (forall i :: k <= i < |s'| ==> s'[i] == s[i + 1])
      && (forall i, j :: 0 <= i < j < |s'| ==> s'[i] != s'[j])
  {
    var s' := s[..k] + s[k + 1..];
    forall i, j | 0 <= i < j < |s'|
      ensures s'[i] != s'[j]
    {
      var a, b := if i < k then i else i + 1, if j < k then j else j + 1;
      assert s'[i] == s[a] && s'[j] == s[b] && a < b;
    }
  }

  /** The interior splice: node k-1 points forward to k+1 and node k+1 back to k-1. */
  ghost function Bypass<T>(l: DList<T>, k: nat): (r: DList<T>)
    requires Valid(l) && 0 < k < |Chain(l)| - 1
  {
    var s := Chain(l);
    SetPrev(SetNext(l, s[k - 1], Some(s[k + 1])), s[k + 1], Some(s[k - 1]))
  }

  lemma BypassNodes<T>(l: DList<T>, k: nat)
    requires Valid(l) && 0 < k < |Chain(l)| - 1
    ensures var s := Chain(l); var r := Bypass(l, k);
      && r.head == l.head && r.tail == l.tail && r.nodes.Keys == l.nodes.Keys
      && (forall i :: 0 <= i < |s| && i != k - 1 && i != k + 1 ==> r.nodes[s[i]] == l.nodes[s[i]])
      && r.nodes[s[k - 1]] == l.nodes[s[k - 1]].(next := Some(s[k + 1]))
      && r.nodes[s[k + 1]] == l.nodes[s[k + 1]].(prev := Some(s[k - 1]))
      && (forall id :: id in l.nodes ==> r.nodes[id].item == l.nodes[id].item)
  {
  }

  lemma BypassLinked<T>(l: DList<T>, k: nat)
    requires Valid(l) && 0 < k < |Chain(l)| - 1
    ensures var s := Chain(l); Linked(Bypass(l, k), s[..k] + s[k + 1..])
  {
    var s := Chain(l);
    var n := |s|;
    var r := Bypass(l, k);
    var s' := s[..k] + s[k + 1..];
    BypassNodes(l, k);
    DeleteDistinct(s, k);
    forall i | 0 <= i < n - 2
      ensures r.nodes[s'[i]].next == Some(s'[i + 1])
    {
      if i < k - 1 {
        assert s'[i] == s[i] && s'[i + 1] == s[i + 1];
        assert l.nodes[s[i]].next == Some(s[i + 1]);
      } else if k - 1 < i {
        assert s'[i] == s[i + 1] && s'[i + 1] == s[i + 2];
        assert l.nodes[s[i + 1]].next == Some(s[i + 2]);
      } else {
        assert s'[i] == s[k - 1] && s'[i + 1] == s[k + 1];
      }
    }
    assert s'[0] == s[0];
    assert s'[n - 2] == s[n - 1] && r.nodes[s[n - 1]].next == None;
  }

  lemma BypassBackLinked<T>(l: DList<T>, k: nat)
    requires Valid(l) && 0 < k < |Chain(l)| - 1
    ensures var s := Chain(l); Linked(Bypass(l, k), s[..k] + s[k + 1..]) && BackLinked(Bypass(l, k), s[..k] + s[k + 1..])
  {
    var s := Chain(l);
    var n := |s|;
    var r := Bypass(l, k);
    var s' := s[..k] + s[k + 1..];
    BypassLinked(l, k);
    BypassNodes(l, k);
    assert forall i :: 0 <= i < k ==> s'[i] == s[i];
    assert forall i :: k <= i < n - 1 ==> s'[i] == s[i + 1];
    forall i | 0 < i < n - 1
      ensures r.nodes[s'[i]].prev == Some(s'[i - 1])
    {
      if i < k {
        assert l.nodes[s[i]].prev == Some(s[i - 1]);
      } else if k < i {
        assert l.nodes[s[i + 1]].prev == Some(s[i]);
      }
    }
    assert s'[n - 2] == s[n - 1];
  }

  lemma UnlinkInner<T>(l: DList<T>, k: nat)
    requires Valid(l) && 0 < k < |Chain(l)| - 1
    ensures Unlinked(l, k, Unlink(l, Chain(l)[k]))
  {
    var s := Chain(l);
    var r := Bypass(l, k);
    assert Unlink(l, s[k]) == Ok(r);
    BypassItems(l, k);
    BypassNodes(l, k);
  }

  /** After the interior splice the list is well formed, and its chain and items
      are the old ones without position k. */
  lemma BypassItems<T>(l: DList<T>, k: nat)
    requires Valid(l) && 0 < k < |Chain(l)| - 1
    ensures var s := Chain(l); var r := Bypass(l, k);
      && Valid(r)
      && Chain(r) == s[..k] + s[k + 1..]
      && Items(r) == Items(l)[..k] + Items(l)[k + 1..]
  {
    var s := Chain(l);
    var r := Bypass(l, k);
    var s' := s[..k] + s[k + 1..];
    BypassBackLinked(l, k);
    BypassNodes(l, k);
    ChainIs(r, s');
    DeleteDistinct(s, k);
    var xs, ys := Items(l), Items(r);
    forall i | 0 <= i < |ys|
      ensures ys[i] == (xs[..k] + xs[k + 1..])[i]
    {
      if i < k {
        assert s'[i] == s[i];
      } else {
        assert s'[i] == s[i + 1];
      }
    }
    assert ys == xs[..k] + xs[k + 1..];
  }

  /** Splicing out the node at position k of a list with two or more nodes
      yields a well-formed list of the other nodes in order; only the node
      before it has its `next_node` changed. */
  lemma UnlinkSpec<T>(l: DList<T>, k: nat)
    requires Valid(l) && 2 <= |Chain(l)| && k < |Chain(l)|
    ensures Unlinked(l, k, Unlink(l, Chain(l)[k]))
  {
    if k == 0 {
      UnlinkHead(l);
    } else if k == |Chain(l)| - 1 {
      UnlinkTail(l);
    } else {
      UnlinkInner(l, k);
    }
  }

  /** `pop(index)`. Without an index, or when head is tail (an empty or
      one-node list), it is `pop_right`, whatever the index. Otherwise it is
      the walk of `PopWalk`. */
  method Pop<T>(l: DList<T>, index: Option<int>) returns (r: Result<DList<T>>)
    requires Valid(l)
    ensures |Items(l)| == 0 ==> r == Err(IndexError)
    ensures |Items(l)| == 1 ==> r.Ok? && Valid(r.value) && Items(r.value) == []
    ensures |Items(l)| >= 2 && index.None? ==>
      r.Ok? && Valid(r.value) && Items(r.value) == Items(l)[..|Items(l)| - 1]
    ensures |Items(l)| >= 2 && index.Some? && 0 <= index.value < |Items(l)| ==>
      r.Ok? && Valid(r.value) && Items(r.value) == Items(l)[..index.value] + Items(l)[index.value + 1..]
    ensures |Items(l)| >= 2 && index.Some? && index.value >= |Items(l)| ==> r == Err(IndexError)
    ensures |Items(l)| >= 2 && index.Some? && index.value < 0 ==> r == Ok(l)
  {
    ghost var s := Chain(l);
    if |s| >= 2 {
      assert s[0] != s[|s| - 1];
    }
    if index.None? || l.head == l.tail {
      PopRightSpec(l);
      return PopRight(l);
    }
    r := PopWalk(l, index.value);
    if 0 <= index.value < |s| {
      UnlinkSpec(l, index.value);
    }
  }

  /** The part of `UnlinkSpec` the walk of `pop(index)` relies on: the splice
      succeeds, keeps the nodes, and leaves the `next_node` of node k and of
      every node after it as it was. */
  lemma UnlinkKeepsWalk<T>(l: DList<T>, k: nat)
    requires Valid(l) && 2 <= |Chain(l)| && k < |Chain(l)|
    ensures Unlink(l, Chain(l)[k]).Ok?
    ensures Unlink(l, Chain(l)[k]).value.nodes.Keys == l.nodes.Keys
    ensures forall j :: k <= j < |Chain(l)| ==> Unlink(l, Chain(l)[k]).value.nodes[Chain(l)[j]].next == l.nodes[Chain(l)[j]].next
  {
    UnlinkSpec(l, k);
  }

  /** The walk `pop(index)` makes on a list of two or more nodes: it visits
      every node, splicing out the one at position `index` and continuing from
      that node's old successor, and raises IndexError at the end when
      `index >= len`. A negative index matches nothing and is a silent no-op. */
  method PopWalk<T>(l: DList<T>, k: int) returns (r: Result<DList<T>>)
    requires Valid(l) && |Chain(l)| >= 2
    ensures 0 <= k < |Chain(l)| ==> r == Unlink(l, Chain(l)[k]) && r.Ok?
    ensures k >= |Chain(l)| ==> r == Err(IndexError)
    ensures k < 0 ==> r == Ok(l)
  {
    ghost var s := Chain(l);
    if 0 <= k < |s| {
      UnlinkKeepsWalk(l, k);
    }
    var cur := l;
    var i := 0;
    var link := l.head;
    while link.Some?
      invariant 0 <= i <= |s|
      invariant link == if i < |s| then Some(s[i]) else None
      invariant cur == if 0 <= k < i then Unlink(l, s[k]).value else l
      decreases |s| - i
    {
      if i == k {
        cur := Unlink(cur, link.value).value;
      }
      link := cur.nodes[link.value].next;
      i := i + 1;
    }
    if k >= i {
      return Err(IndexError);
    }
    return Ok(cur);
  }

  /* ---------------------------------------------------------------------- */
  /* Queries                                                                 */
  /* ---------------------------------------------------------------------- */

  /** `contains`: a linear scan comparing items with `==`. */
  method Contains<T(==)>(l: DList<T>, x: T) returns (b: bool)
    requires Traversable(l)
    ensures b <==> x in Items(l)
  {
    ghost var s := Chain(l);
    ghost var i := 0;
    var link := l.head;
    while link.Some?
      invariant 0 <= i <= |s|
      invariant link == if i < |s| then Some(s[i]) else None
      invariant x !in Items(l)[..i]
      decreases |s| - i
    {
      if l.nodes[link.value].item == x {
        return true;
      }
      link := l.nodes[link.value].next;
      i := i + 1;
    }
    return false;
  }

  /** `py_list`: the node objects (not their items) from head to the end of the
      chain; the list itself is not changed. */
  method PyList<T>(l: DList<T>) returns (r: seq<NodeId>)
    requires Traversable(l)
    ensures r == Chain(l)
    ensures |r| == |Items(l)| && forall i :: 0 <= i < |r| ==> l.nodes[r[i]].item == Items(l)[i]
  {
    ghost var s := Chain(l);
    r := [];
    var link := l.head;
    while link.Some?
      invariant |r| <= |s| && r == s[..|r|]
      invariant link == if |r| < |s| then Some(s[|r|]) else None
      decreases |s| - |r|
    {
      r := r + [link.value];
      link := l.nodes[link.value].next;
    }
  }

  /* ---------------------------------------------------------------------- */
  /* Repeated pops                                                           */
  /* ---------------------------------------------------------------------- */

  /** `k` consecutive `pop_right` calls, stopping at the first exception. */
  function PopRightTimes<T>(l: DList<T>, k: nat): (r: Result<DList<T>>)
    requires Closed(l)
    ensures r.Ok? ==> Closed(r.value)
    decreases k
  {
    if k == 0 then Ok(l) else var l1 :- PopRight(l); PopRightTimes(l1, k - 1)
  }

  /** One `pop_right` on a non-empty list keeps it well formed. */
  lemma PopRightStep<T>(l: DList<T>)
    requires Valid(l) && |Items(l)| >= 1
    ensures PopRight(l).Ok? && Valid(PopRight(l).value)
    ensures Items(PopRight(l).value) == Items(l)[..|Items(l)| - 1]
  {
    PopRightSpec(l);
  }

  /** Dropping the last item and then `k - 1` more drops the last `k`. */
  lemma TakeAfterTake<T>(xs: seq<T>, k: nat)
    requires 0 < k <= |xs|
    ensures xs[..|xs| - 1][..|xs| - 1 - (k - 1)] == xs[..|xs| - k]
  {
  }

  lemma {:induction false} PopRightTimesSpec<T>(l: DList<T>, k: nat)
    requires Valid(l) && k <= |Items(l)|
    ensures var r := PopRightTimes(l, k);
      r.Ok? && Valid(r.value) && Items(r.value) == Items(l)[..|Items(l)| - k]
    decreases k
  {
    if k > 0 {
      PopRightStep(l);
      var l1 := PopRight(l).value;
      var xs := Items(l);
      PopRightTimesSpec(l1, k - 1);
      var r1 := PopRightTimes(l1, k - 1);
      TakeAfterTake(xs, k);
      assert PopRightTimes(l, k) == r1;
    } else {
      assert PopRightTimes(l, k).value == l;
      assert Valid(PopRightTimes(l, k).value);
    }
  }

  /** Popping from the right as many times as there are items empties the list
      (head and tail None), and one more pop raises IndexError. */
  lemma DrainRight<T>(l: DList<T>)
    requires Valid(l)
    ensures var r := PopRightTimes(l, |Items(l)|);
      && r.Ok?
      && r.value.head.None? && r.value.tail.None?
      && PopRight(r.value) == Err(IndexError)
  {
    PopRightTimesSpec(l, |Items(l)|);
  }

  /** `k` consecutive `pop_left` calls, stopping at the first exception. */
  function PopLeftTimes<T>(l: DList<T>, k: nat): (r: Result<DList<T>>)
    requires Closed(l)
    ensures r.Ok? ==> Closed(r.value)
    decreases k
  {
    if k == 0 then Ok(l) else var l1 :- PopLeft(l); PopLeftTimes(l1, k - 1)
  }

  lemma {:induction false} PopLeftTimesSpec<T>(l: DList<T>, k: nat)
    requires Valid(l) && k < |Items(l)|
    ensures var r := PopLeftTimes(l, k);
      r.Ok? && Valid(r.value) && Items(r.value) == Items(l)[k..] && r.value.tail == l.tail
    decreases k
  {
    if k > 0 {
      PopLeftStep(l);
      var l1 := PopLeft(l).value;
      var xs := Items(l);
      PopLeftTimesSpec(l1, k - 1);
      var r1 := PopLeftTimes(l1, k - 1);
      DropAfterDrop(xs, k);
      assert PopLeftTimes(l, k) == r1;
    } else {
      assert PopLeftTimes(l, k).value == l;
      assert Valid(PopLeftTimes(l, k).value);
    }
  }

  /** Dropping one item and then `k - 1` more drops `k`. */
  lemma DropAfterDrop<T>(xs: seq<T>, k: nat)
    requires 0 < k <= |xs|
    ensures xs[1..][k - 1..] == xs[k..]
  {
  }

  /** One `pop_left` on a list of two or more items keeps it well formed. */
  lemma PopLeftStep<T>(l: DList<T>)
    requires Valid(l) && |Items(l)| >= 2
    ensures PopLeft(l).Ok? && Valid(PopLeft(l).value)
    ensures Items(PopLeft(l).value) == Items(l)[1..] && PopLeft(l).value.tail == l.tail
  {
    PopLeftSpec(l);
  }

  /** Popping from the left as many times as there are items leaves the head
      None but the tail still designating the last node popped: the emptied
      list is not well formed, although a further `pop_left` still raises
      IndexError. */
  lemma DrainLeftKeepsTail<T>(l: DList<T>)
    requires Valid(l) && |Items(l)| >= 1
    ensures var r := PopLeftTimes(l, |Items(l)|);
      && r.Ok?
      && r.value.head.None?
      && r.value.tail == l.tail && l.tail.Some?
      && !Valid(r.value)
      && PopLeft(r.value) == Err(IndexError)
  {
    var n := |Items(l)|;
    assert Closed(l);
    PopLeftTimesSpec(l, n - 1);
    var l1 := PopLeftTimes(l, n - 1).value;
    PopLeftLast(l1);
    var r := PopLeftTimes(l, n);
    assert r == PopLeft(l1) by {
      PopLeftTimesSplit(l, n - 1);
      assert PopLeftTimes(l1, 1) == PopLeft(l1);
    }
  }

  /** `pop_left` on a list of one item empties the head but keeps the tail. */
  lemma PopLeftLast<T>(l: DList<T>)
    requires Valid(l) && |Items(l)| == 1
    ensures var r := PopLeft(l);
      && r.Ok? && r.value.head.None? && r.value.tail == l.tail && l.tail.Some?
      && !Valid(r.value)
      && PopLeft(r.value) == Err(IndexError)
  {
    PopLeftSpec(l);
  }

  lemma {:induction false} PopLeftTimesSplit<T>(l: DList<T>, k: nat)
    requires Closed(l) && PopLeftTimes(l, k).Ok?
    ensures PopLeftTimes(l, k + 1) == PopLeftTimes(PopLeftTimes(l, k).value, 1)
    decreases k
  {
    if k > 0 {
      PopLeftTimesSplit(PopLeft(l).value, k - 1);
    }
  }

  /* ---------------------------------------------------------------------- */
  /* The pop_left defect on a concrete list                                  */
  /* ---------------------------------------------------------------------- */

  /** On a one-item list, `pop_left` followed by `append_left` leaves a head
      that is not the tail while the tail is the popped node, which has no
      predecessor: the next `pop_right` fails on `None.next_node`, after it has
      already cleared the tail, so the list is left with a head and no tail.
      With the intended `pop_left` the same calls succeed. */
  lemma PopLeftLeavesStaleTail<T>(a: T, b: T)
    ensures var l := FromSeq([a]);
      && PopLeft(l).Ok?
      && PopLeft(l).value.head.None? && PopLeft(l).value.tail.Some?
      && PopRight(AppendLeft(PopLeft(l).value, b)) == Err(AttributeError)
      && (var broken := PopRightRaisedState(AppendLeft(PopLeft(l).value, b));
          broken.head.Some? && broken.tail.None? && !Valid(broken))
      && PopLeftIntended(l).Ok?
      && PopRight(AppendLeft(PopLeftIntended(l).value, b)).Ok?
  {
    var l := FromSeq([a]);
    assert l.nodes[0] == Node(a, None, None);
  }
}

=== FILE: exceptions.dfy ===
/** How a call into the containers ends: it either returns a value or raises one
    of Python's built-in exceptions. Python's `None` and omitted arguments are
    `Option`s. */
module Exceptions {

  /** A value that may be Python's `None`: a `head`/`tail`/`next_node` reference,
      a lookup that finds nothing, or an argument left at its default. */
  datatype Option<T> = None | Some(value: T)

  /** The Python exception classes the containers can raise. */
  datatype PyError =
    | IndexError      // index out of range, or pop from an empty container
    | ValueError      // list.index / list.remove of a value that is absent
    | AttributeError  // attribute access on None (a broken doubly linked chain)

  /** A call's outcome: `Ok` with what it returns (or the updated container),
      or `Err` with the exception it raises. The three members below are the
      ones Dafny's `:-` operator needs, so that a raise inside a call
      propagates to the caller as Python's exceptions do. */
  datatype Result<T> = Ok(value: T) | Err(error: PyError) {

    /** The call raised. */
    predicate IsFailure() {
      Err?
    }

    /** The same exception, re-raised from a caller with another return type. */
    function PropagateFailure<U>(): (r: Result<U>)
      requires Err?
      ensures r.Err? && r.error == error
    {
      Err(error)
    }

    /** The returned value of a call that did not raise. */
    function Extract(): (v: T)
      requires Ok?
      ensures Ok(v) == this
    {
      value
    }
  }
}

=== FILE: linkedlist.dfy ===
/** linkedlist.py: a singly linked list that is never empty. Nodes live in an
    arena indexed by node identity; `Chain` recovers the nodes reached from the
    head, and `Items` their payloads. */
module LinkedLists {
  import opened Exceptions

  /** Identity of a node object. */
  type NodeId = nat

  /** A `Node`: its payload and its `next` reference. */
  datatype Node<T> = Node(item: T, next: Option<NodeId>)

  /** A `LinkedList`: the arena of nodes created so far, the head (always a
      node: the constructor makes one) and the identity the next node created
      will get. */
  datatype LinkedList<T> = LinkedList(nodes: map<NodeId, Node<T>>, head: NodeId, nextId: NodeId)

  /** `Node.is_tail()`: the node has no successor. */
  predicate IsTail<T>(n: Node<T>)
    ensures IsTail(n) <==> forall id: NodeId :: n.next != Some(id)
  {
    n.next.None?
  }

  /** Every reference designates an existing node, and `nextId` is beyond every
      identity in use. */
  ghost predicate Closed<T>(l: LinkedList<T>) {
    && (forall id :: id in l.nodes ==> id < l.nextId)
    && l.head in l.nodes
    && (forall id :: id in l.nodes && l.nodes[id].next.Some? ==> l.nodes[id].next.value in l.nodes)
  }

  /** `s` is the sequence of distinct nodes reached from the head by following
      `next` up to the node that is the tail. */
  ghost predicate Linked<T>(l: LinkedList<T>, s: seq<NodeId>) {
    && |s| >= 1
    && s[0] == l.head
    && (forall i :: 0 <= i < |s| ==> s[i] in l.nodes)
    && (forall i, j :: 0 <= i < j < |s| ==> s[i] != s[j])
    && IsTail(l.nodes[s[|s| - 1]])
    && (forall i :: 0 <= i < |s| - 1 ==> l.nodes[s[i]].next == Some(s[i + 1]))
  }

  /** The list's invariant: following `next` from the head reaches a tail. */
  ghost predicate Valid<T>(l: LinkedList<T>) {
    Closed(l) && exists s :: Linked(l, s)
  }

  /** The nodes from the head to the tail. */
  ghost function Chain<T>(l: LinkedList<T>): (s: seq<NodeId>)
    requires Valid(l)
    ensures Linked(l, s)
  {
    var s :| Linked(l, s); s
  }

  /** The payloads from head to tail. */
  ghost function Items<T>(l: LinkedList<T>): (v: seq<T>)
    requires Valid(l)
    ensures |v| == |Chain(l)|
    ensures forall i :: 0 <= i < |v| ==> v[i] == l.nodes[Chain(l)[i]].item
  {
    seq(|Chain(l)|, i requires 0 <= i < |Chain(l)| => l.nodes[Chain(l)[i]].item)
  }

  // `LinkedAgree`, `LinkedUnique` and `ChainIs` follow the same argument as
  // their namesakes in `DllChain`, but about a different `Linked`: here the
  // head is always a node and the chain is never empty, while a doubly linked
  // list may have no head and its nodes also carry `prev`. Each module states
  // its chain over its own node type, so each proves uniqueness for itself.

  /** Two chains of the same list agree position by position. */
  lemma {:induction false} LinkedAgree<T>(l: LinkedList<T>, s1: seq<NodeId>, s2: seq<NodeId>, k: nat)
    requires Linked(l, s1) && Linked(l, s2)
    requires k < |s1| && k < |s2|
    ensures s1[k] == s2[k]
    decreases k
  {
    if k > 0 {
      LinkedAgree(l, s1, s2, k - 1);
      assert l.nodes[s1[k - 1]].next == Some(s1[k]);
      assert l.nodes[s2[k - 1]].next == Some(s2[k]);
    }
  }

  /** The chain of a list is unique. */
  lemma LinkedUnique<T>(l: LinkedList<T>, s1: seq<NodeId>, s2: seq<NodeId>)
    requires Linked(l, s1) && Linked(l, s2)
    ensures s1 == s2
  {
    if |s1| < |s2| {
      assert l.nodes[s2[|s1| - 1]].next == Some(s2[|s1|]);
      LinkedAgree(l, s1, s2, |s1| - 1);
      assert false;
    } else if |s2| < |s1| {
      assert l.nodes[s1[|s2| - 1]].next == Some(s1[|s2|]);
      LinkedAgree(l, s1, s2, |s2| - 1);
      assert false;
    }
    forall k | 0 <= k < |s1|
      ensures s1[k] == s2[k]
    {
      LinkedAgree(l, s1, s2, k);
    }
  }

  /** Any chain of a closed list is the chain. */
  lemma ChainIs<T>(l: LinkedList<T>, s: seq<NodeId>)
    requires Closed(l) && Linked(l, s)
    ensures Valid(l) && Chain(l) == s
  {
    LinkedUnique(l, Chain(l), s);
  }

  /** Along the chain, `is_tail()` holds of the last node and of no other. */
  lemma IsTailSpec<T>(l: LinkedList<T>, i: nat)
    requires Valid(l) && i < |Chain(l)|
    ensures IsTail(l.nodes[Chain(l)[i]]) <==> i == |Chain(l)| - 1
  {
    var s := Chain(l);
    if i < |s| - 1 {
      assert l.nodes[s[i]].next == Some(s[i + 1]);
    }
  }

  /** `LinkedList(item)`: a single fresh node holding `item`. */
  function New<T>(x: T): (r: LinkedList<T>)
    ensures r.nodes.Keys == {r.head} && r.head < r.nextId
    ensures r.nodes[r.head].item == x && IsTail(r.nodes[r.head])
  {
    LinkedList(map[0 := Node(x, None)], 0, 1)
  }

  /** A new list is valid and holds exactly the one item; its head is the
      tail. */
  lemma NewSpec<T>(x: T)
    ensures Valid(New(x))
    ensures Items(New(x)) == [x]
    ensures IsTail(New(x).nodes[New(x).head])
  {
    ChainIs(New(x), [0]);
  }

  /** `append_left(item)`: a fresh node holding `item`, linked in front of the
      old head, becomes the head. */
  function AppendLeft<T>(l: LinkedList<T>, v: T): (r: LinkedList<T>)
    ensures r.nodes.Keys == l.nodes.Keys + {l.nextId}
    ensures forall id :: id in l.nodes && id != l.nextId ==> r.nodes[id] == l.nodes[id]
  {
    LinkedList(l.nodes[l.nextId := Node(v, Some(l.head))], l.nextId, l.nextId + 1)
  }

  /** `append_left` keeps the list valid, puts the new node in front of the old
      chain and the new item in front of the old items. */
  lemma AppendLeftSpec<T>(l: LinkedList<T>, v: T)
    requires Valid(l)
    ensures Valid(AppendLeft(l, v))
    ensures Chain(AppendLeft(l, v)) == [l.nextId] + Chain(l)
    ensures Items(AppendLeft(l, v)) == [v] + Items(l)
  {
    var s: seq<NodeId> := Chain(l);
    var r := AppendLeft(l, v);
    AppendLeftChain(l, v);
    var xs, ys := Items(l), Items(r);
    forall i | 0 <= i < |ys|
      ensures ys[i] == ([v] + xs)[i]
    {
      if 0 < i {
        assert Chain(r)[i] == s[i - 1];
      }
    }
    assert ys == [v] + xs;
  }

  /** The chain part of `AppendLeftSpec`. */
  lemma AppendLeftChain<T>(l: LinkedList<T>, v: T)
    requires Valid(l)
    ensures Valid(AppendLeft(l, v))
    ensures Chain(AppendLeft(l, v)) == [l.nextId] + Chain(l)
  {
    var r := AppendLeft(l, v);
    var s: seq<NodeId> := Chain(l);
    var s': seq<NodeId> := [l.nextId] + s;
    assert r.nodes[l.nextId] == Node(v, Some(l.head));
    forall i | 0 <= i < |s'|
      ensures s'[i] in r.nodes
      ensures 0 < i ==> s'[i] == s[i - 1] && s'[i] < l.nextId && r.nodes[s'[i]] == l.nodes[s[i - 1]]
    {
    }
    forall i, j | 0 <= i < j < |s'|
      ensures s'[i] != s'[j]
    {
    }
    forall i | 0 <= i < |s'| - 1
      ensures r.nodes[s'[i]].next == Some(s'[i + 1])
    {
      if 0 < i {
        assert l.nodes[s[i - 1]].next == Some(s[i]);
      }
    }
    assert Linked(r, s');
    ChainIs(r, s');
  }

  /** The arena after linking a fresh node holding `v` behind node `last`. */
  function LinkAfter<T>(l: LinkedList<T>, last: NodeId, v: T): (r: LinkedList<T>)
    requires last in l.nodes
    ensures r.nodes.Keys == l.nodes.Keys + {l.nextId}
    ensures r.head == l.head
  {
    LinkedList(l.nodes[last := l.nodes[last].(next := Some(l.nextId))][l.nextId := Node(v, None)], l.head, l.nextId + 1)
  }

  /** Linking a fresh node behind the tail extends the chain by that node and
      the items by `v`. */
  lemma LinkAfterTail<T>(l: LinkedList<T>, v: T)
    requires Valid(l)
    ensures Valid(LinkAfter(l, Chain(l)[|Chain(l)| - 1], v))
    ensures Chain(LinkAfter(l, Chain(l)[|Chain(l)| - 1], v)) == Chain(l) + [l.nextId]
    ensures Items(LinkAfter(l, Chain(l)[|Chain(l)| - 1], v)) == Items(l) + [v]
  {
    var s: seq<NodeId> := Chain(l);
    var r := LinkAfter(l, s[|s| - 1], v);
    LinkAfterTailChain(l, v);
    var xs, ys := Items(l), Items(r);
    forall i | 0 <= i < |ys|
      ensures ys[i] == (xs + [v])[i]
    {
      if i < |s| {
        assert Chain(r)[i] == s[i];
      }
    }
    assert ys == xs + [v];
  }

  /** The chain part of `LinkAfterTail`. */
  lemma LinkAfterTailChain<T>(l: LinkedList<T>, v: T)
    requires Valid(l)
    ensures Valid(LinkAfter(l, Chain(l)[|Chain(l)| - 1], v))
    ensures Chain(LinkAfter(l, Chain(l)[|Chain(l)| - 1], v)) == Chain(l) + [l.nextId]
  {
    var s: seq<NodeId> := Chain(l);
    var last := s[|s| - 1];
    var r := LinkAfter(l, last, v);
    var s': seq<NodeId> := s + [l.nextId];
    assert r.nodes[l.nextId] == Node(v, None);
    assert r.nodes[last].next == Some(l.nextId);
    forall i | 0 <= i < |s'|
      ensures s'[i] in r.nodes
      ensures i < |s| ==> s'[i] == s[i] && s'[i] < l.nextId
    {
    }
    forall i, j | 0 <= i < j < |s'|
      ensures s'[i] != s'[j]
    {
    }
    forall i | 0 <= i < |s'| - 1
      ensures r.nodes[s'[i]].next == Some(s'[i + 1])
    {
      if i < |s| - 1 {
        assert r.nodes[s[i]] == l.nodes[s[i]];
      }
    }
    assert Linked(r, s');
    ChainIs(r, s');
  }

  /** `append_right(item)`: walks from the head while the current node is not
      the tail, then links a fresh node holding `item` behind it. Only the old
      tail's `next` changes. */
  method AppendRight<T>(l: LinkedList<T>, v: T) returns (r: LinkedList<T>)
    requires Valid(l)
    ensures var last := Chain(l)[|Chain(l)| - 1];
      r.nodes == l.nodes[last := l.nodes[last].(next := Some(l.nextId))][l.nextId := Node(v, None)]
    ensures r.head == l.head && r.nextId == l.nextId + 1
    ensures Valid(r)
    ensures Chain(r) == Chain(l) + [l.nextId]
    ensures Items(r) == Items(l) + [v]
  {
    ghost var s := Chain(l);
    var cur := l.head;
    ghost var i := 0;
    while !IsTail(l.nodes[cur])
      invariant 0 <= i < |s| && cur == s[i]
      decreases |s| - i
    {
      IsTailSpec(l, i);
      cur := l.nodes[cur].next.value;
      i := i + 1;
    }
    IsTailSpec(l, i);
    r := LinkAfter(l, cur, v);
    LinkAfterTail(l, v);
  }

  /** `py_list()`: the nodes from head to tail, collected by the same walk. */
  method PyList<T>(l: LinkedList<T>) returns (r: seq<NodeId>)
    requires Valid(l)
    ensures r == Chain(l)
    ensures |r| >= 1 && r[0] == l.head
    ensures IsTail(l.nodes[r[|r| - 1]])
    ensures forall i :: 0 <= i < |r| ==> l.nodes[r[i]].item == Items(l)[i]
  {
    ghost var s := Chain(l);
    var cur := l.head;
    r := [cur];
    while !IsTail(l.nodes[cur])
      invariant 1 <= |r| <= |s| && r == s[..|r|] && cur == s[|r| - 1]
      decreases |s| - |r|
    {
      IsTailSpec(l, |r| - 1);
      cur := l.nodes[cur].next.value;
      r := r + [cur];
    }
    IsTailSpec(l, |r| - 1);
  }

  /** One call made on a list after its construction. */
  datatype Call<T> = AppendLeftCall(left: T) | AppendRightCall(right: T)

  /** The list `LinkedList(x)` becomes after the calls `calls`, in order, with
      `append_right` linking behind the tail it walks to. */
  ghost function Build<T>(x: T, calls: seq<Call<T>>): (l: LinkedList<T>)
    ensures Valid(l)
    ensures |Chain(l)| == 1 + |calls|
  {
    if calls == [] then
      NewSpec(x);
      New(x)
    else
      var l := Build(x, calls[..|calls| - 1]);
      match calls[|calls| - 1]
      case AppendLeftCall(v) =>
        AppendLeftSpec(l, v);
        AppendLeft(l, v)
      case AppendRightCall(v) =>
        LinkAfterTail(l, v);
        LinkAfter(l, Chain(l)[|Chain(l)| - 1], v)
  }

  /** The items the calls should produce: a left append puts its item first, a
      right append puts it last. */
  function Expected<T>(x: T, calls: seq<Call<T>>): (v: seq<T>) {
    if calls == [] then [x]
    else
      var prev := Expected(x, calls[..|calls| - 1]);
      match calls[|calls| - 1]
      case AppendLeftCall(v) => [v] + prev
      case AppendRightCall(v) => prev + [v]
  }

  /** Whatever the calls, the list holds the expected items, so `py_list`
      returns one node per item: one for the constructor and one per append. */
  lemma {:induction false} BuildHoldsExpected<T>(x: T, calls: seq<Call<T>>)
    ensures Items(Build(x, calls)) == Expected(x, calls)
    ensures |Expected(x, calls)| == 1 + |calls|
  {
    if calls == [] {
      NewSpec(x);
    } else {
      var init := calls[..|calls| - 1];
      BuildHoldsExpected(x, init);
      var l := Build(x, init);
      match calls[|calls| - 1]
      case AppendLeftCall(v) =>
        AppendLeftSpec(l, v);
      case AppendRightCall(v) =>
        LinkAfterTail(l, v);
    }
  }
}

=== FILE: pylists.dfy ===
/** The semantics of the Python list operations the container wrappers delegate
    to: indexing with negative indices, item assignment, `del`, `index` and
    `remove`. */
module PyLists {
  import opened Exceptions

  /** The position index `i` designates in a list of length `n`: a negative
      index counts from the end; None when it is out of range. */
  function Resolve(n: nat, i: int): (k: Option<nat>)
    ensures k.Some? <==> -(n as int) <= i < n
    ensures k.Some? ==> k.value < n && k.value == if i < 0 then n + i else i
  {
    if 0 <= i < n then Some(i) else if -(n as int) <= i < 0 then Some(n + i) else None
  }

  /** `s[i]` */
  function Get<T>(s: seq<T>, i: int): (r: Result<T>)
    ensures r.Ok? <==> -|s| <= i < |s|
    ensures r.Err? ==> r.error == IndexError
    ensures r.Ok? ==> r.value == s[Resolve(|s|, i).value]
  {
    match Resolve(|s|, i)
    case None => Err(IndexError)
    case Some(k) => Ok(s[k])
  }

  /** `s[i] = v` */
  function Set<T>(s: seq<T>, i: int, v: T): (r: Result<seq<T>>)
    ensures r.Ok? <==> -|s| <= i < |s|
    ensures r.Err? ==> r.error == IndexError
    ensures r.Ok? ==> r.value == s[Resolve(|s|, i).value := v]
  {
    match Resolve(|s|, i)
    case None => Err(IndexError)
    case Some(k) => Ok(s[k := v])
  }

  /** `del s[i]` */
  function Delete<T>(s: seq<T>, i: int): (r: Result<seq<T>>)
    ensures r.Ok? <==> -|s| <= i < |s|
    ensures r.Err? ==> r.error == IndexError
    ensures r.Ok? ==> var k := Resolve(|s|, i).value; r.value == s[..k] + s[k + 1..]
  {
    match Resolve(|s|, i)
    case None => Err(IndexError)
    case Some(k) => Ok(s[..k] + s[k + 1..])
  }

  /** `k` is the position of the first occurrence of `x` in `s`. */
  ghost predicate FirstAt<T>(s: seq<T>, x: T, k: int) {
    0 <= k < |s| && s[k] == x && x !in s[..k]
  }

  /** `s.index(x)`: the position of the first occurrence, or ValueError. */
  function Index<T(==)>(s: seq<T>, x: T): (r: Result<nat>)
    ensures r.Ok? <==> x in s
    ensures r.Err? ==> r.error == ValueError
    ensures r.Ok? ==> FirstAt(s, x, r.value)
  {
    if s == [] then Err(ValueError)
    else if s[0] == x then Ok(0)
    else
      var k :- Index(s[1..], x);
      assert s[..k + 1] == [s[0]] + s[1..][..k];
      Ok(k + 1)
  }

  /** Deleting position k removes exactly one copy of `s[k]`. */
  lemma DeleteMultiset<T>(s: seq<T>, k: nat)
    requires k < |s|
    ensures multiset(s[..k] + s[k + 1..]) == multiset(s) - multiset{s[k]}
  {
    assert s == s[..k] + [s[k]] + s[k + 1..];
  }

  /** `del s[s.index(x)]`, which is also what `s.remove(x)` does: the first
      occurrence of `x` is deleted, and ValueError is raised when there is none. */
  function Remove<T(==)>(s: seq<T>, x: T): (r: Result<seq<T>>)
    ensures r.Ok? <==> x in s
    ensures r.Err? ==> r.error == ValueError
    ensures r.Ok? ==> exists k :: FirstAt(s, x, k) && r.value == s[..k] + s[k + 1..]
    ensures r.Ok? ==> multiset(r.value) == multiset(s) - multiset{x}
  {
    var k :- Index(s, x);
    DeleteMultiset(s, k);
    Delete(s, k)
  }
}

=== FILE: queue.dfy ===
/** `Queue` (queue.py): a first-in first-out wrapper over a Python list. */
module Queues {
  import opened Exceptions
  import opened PyLists

  /** `Queue(*items)` keeps its arguments in order. */
  datatype Queue<T> = Queue(items: seq<T>)

  /** What `__add__` may receive: it dispatches on whether the operand is a
      Queue, a list, or any other object. */
  datatype Operand<T> = QueueOperand(queue: Queue<T>) | ListOperand(list: seq<T>) | ObjectOperand(obj: T)

  /** `queue[i]`, with Python's negative indices. */
  function GetItem<T>(q: Queue<T>, i: int): (r: Result<T>)
    ensures r.Ok? <==> -|q.items| <= i < |q.items|
    ensures r.Err? ==> r.error == IndexError
    ensures 0 <= i < |q.items| ==> r == Ok(q.items[i])
    ensures -|q.items| <= i < 0 ==> r == Ok(q.items[|q.items| + i])
  {
    Get(q.items, i)
  }

  /** `queue[i] = v` */
  function SetItem<T>(q: Queue<T>, i: int, v: T): (r: Result<Queue<T>>)
    ensures r.Ok? <==> -|q.items| <= i < |q.items|
    ensures r.Err? ==> r.error == IndexError
    ensures r.Ok? ==> |r.value.items| == |q.items|
  {
    var items :- Set(q.items, i, v);
    Ok(Queue(items))
  }

  /** Reading back a position just assigned yields the assigned value, and
      every other position reads as before. */
  lemma SetThenGet<T>(q: Queue<T>, i: int, v: T)
    requires -|q.items| <= i < |q.items|
    ensures SetItem(q, i, v).Ok?
    ensures GetItem(SetItem(q, i, v).value, i) == Ok(v)
    ensures forall j :: -|q.items| <= j < |q.items| && Resolve(|q.items|, j) != Resolve(|q.items|, i) ==>
      GetItem(SetItem(q, i, v).value, j) == GetItem(q, j)
  {
  }

  /** `queue + other`: a plain list (not a Queue) holding the queue's items
      followed by the operand's items, or by the operand itself when it is
      neither a Queue nor a list. */
  function Add<T>(q: Queue<T>, other: Operand<T>): (r: seq<T>)
    ensures |q.items| <= |r| && r[..|q.items|] == q.items
    ensures other.QueueOperand? ==> r[|q.items|..] == other.queue.items
    ensures other.ListOperand? ==> r[|q.items|..] == other.list
    ensures other.ObjectOperand? ==> r[|q.items|..] == [other.obj]
  {
    match other
    case QueueOperand(o) => q.items + o.items
    case ListOperand(xs) => q.items + xs
    case ObjectOperand(x) => q.items + [x]
  }

  /** `append(x)` */
  function Append<T>(q: Queue<T>, x: T): (r: Queue<T>)
    ensures |r.items| == |q.items| + 1
    ensures r.items[..|q.items|] == q.items && r.items[|q.items|] == x
  {
    Queue(q.items + [x])
  }

  /** Adding a Queue and adding a list of the same items agree, and adding any
      other object is appending it, except that the result is a plain list. */
  lemma AddDispatch<T>(q: Queue<T>, xs: seq<T>, x: T)
    ensures Add(q, ListOperand(xs)) == Add(q, QueueOperand(Queue(xs)))
    ensures Add(q, ObjectOperand(x)) == Append(q, x).items
  {
  }

  /** `pop(index=None)`: `del items[index]`, or `del items[0]` when no index is
      given. Nothing is returned. */
  function Pop<T>(q: Queue<T>, index: Option<int>): (r: Result<Queue<T>>)
    ensures r.Err? ==> r.error == IndexError
    ensures index.None? ==> (r.Ok? <==> |q.items| > 0)
    ensures index.None? && r.Ok? ==> r.value.items == q.items[1..]
    ensures index.Some? ==> (r.Ok? <==> -|q.items| <= index.value < |q.items|)
    ensures index.Some? && r.Ok? ==>
      var k := Resolve(|q.items|, index.value).value;
      r.value.items == q.items[..k] + q.items[k + 1..]
  {
    var items :- Delete(q.items, if index.Some? then index.value else 0);
    Ok(Queue(items))
  }

  /** First in, first out: popping after an append removes the oldest item, the
      appended one only when the queue was empty. */
  lemma FifoOrder<T>(q: Queue<T>, x: T)
    ensures |q.items| == 0 ==> Pop(Append(q, x), None) == Ok(q)
    ensures |q.items| > 0 ==> Pop(Append(q, x), None) == Ok(Append(Pop(q, None).value, x))
  {
    if |q.items| > 0 {
      assert (q.items + [x])[1..] == q.items[1..] + [x];
    }
  }

  /** Popping the last position undoes an append. */
  lemma AppendThenPopLast<T>(q: Queue<T>, x: T)
    ensures Pop(Append(q, x), Some(-1)) == Ok(q)
  {
    var s := q.items + [x];
    assert Resolve(|s|, -1) == Some(|q.items|);
    assert s[..|q.items|] + s[|q.items| + 1..] == q.items;
  }

  /** `remove(x)`: `del items[items.index(x)]`. */
  function Remove<T(==)>(q: Queue<T>, x: T): (r: Result<Queue<T>>)
    ensures r.Ok? <==> x in q.items
    ensures r.Err? ==> r.error == ValueError
    ensures r.Ok? ==> exists k :: FirstAt(q.items, x, k) && r.value.items == q.items[..k] + q.items[k + 1..]
  {
    var items :- PyLists.Remove(q.items, x);
    Ok(Queue(items))
  }

  /** `contains(x)` */
  function Contains<T(==)>(q: Queue<T>, x: T): (b: bool)
    ensures b <==> exists i :: 0 <= i < |q.items| && q.items[i] == x
  {
    x in q.items
  }

  /** An item is contained exactly when removing it succeeds, and removing it
      takes away exactly one copy. */
  lemma ContainsIffRemovable<T>(q: Queue<T>, x: T)
    ensures Contains(q, x) <==> Remove(q, x).Ok?
    ensures Contains(q, x) ==> multiset(Remove(q, x).value.items) == multiset(q.items) - multiset{x}
    ensures Contains(q, x) ==> |Remove(q, x).value.items| == |q.items| - 1
  {
  }
}

=== FILE: stack.dfy ===
/** `Stack` (stack.py): a last-in first-out wrapper over a Python list. */
module Stacks {
  import opened Exceptions
  import opened PyLists

  /** `Stack(*items)` keeps its arguments in order; the top is the last item. */
  datatype Stack<T> = Stack(items: seq<T>)

  /** What `__add__` may receive: a Stack (of the receiver's class), a list, or
      any other object. */
  datatype Operand<T> = StackOperand(stack: Stack<T>) | ListOperand(list: seq<T>) | ObjectOperand(obj: T)

  /** `stack[i]`: indexes the items directly, negative indices included. */
  function GetItem<T>(s: Stack<T>, i: int): (r: Result<T>)
    ensures r.Ok? <==> -|s.items| <= i < |s.items|
    ensures r.Err? ==> r.error == IndexError
    ensures 0 <= i < |s.items| ==> r == Ok(s.items[i])
    ensures -|s.items| <= i < 0 ==> r == Ok(s.items[|s.items| + i])
  {
    Get(s.items, i)
  }

  /** `stack + other`: a plain list of the stack's items followed by the
      operand's items, or by the operand itself when it is neither a Stack nor
      a list. */
  function Add<T>(s: Stack<T>, other: Operand<T>): (r: seq<T>)
    ensures |s.items| <= |r| && r[..|s.items|] == s.items
    ensures other.StackOperand? ==> r[|s.items|..] == other.stack.items
    ensures other.ListOperand? ==> r[|s.items|..] == other.list
    ensures other.ObjectOperand? ==> r[|s.items|..] == [other.obj]
  {
    match other
    case StackOperand(o) => s.items + o.items
    case ListOperand(xs) => s.items + xs
    case ObjectOperand(x) => s.items + [x]
  }

  /** `append(x)` pushes onto the top. */
  function Append<T>(s: Stack<T>, x: T): (r: Stack<T>)
    ensures |r.items| == |s.items| + 1
    ensures r.items[..|s.items|] == s.items && r.items[|s.items|] == x
  {
    Stack(s.items + [x])
  }

  /** `pop(item=None)`. Python's truth value of the argument decides the
      meaning: a truthy argument is a VALUE whose first occurrence is deleted
      (ValueError when absent); a falsy one (None, 0, "", ...) deletes the top
      item (IndexError when empty). `truthy` is the argument type's `__bool__`.
      Nothing is returned. */
  function Pop<T(==)>(s: Stack<T>, arg: Option<T>, truthy: T -> bool): (r: Result<Stack<T>>)
    ensures arg.Some? && truthy(arg.value) ==>
      && (r.Ok? <==> arg.value in s.items)
      && (r.Err? ==> r.error == ValueError)
      && (r.Ok? ==> exists k :: FirstAt(s.items, arg.value, k) && r.value.items == s.items[..k] + s.items[k + 1..])
    ensures !(arg.Some? && truthy(arg.value)) ==>
      && (r.Ok? <==> |s.items| > 0)
      && (r.Err? ==> r.error == IndexError)
      && (r.Ok? ==> r.value.items == s.items[..|s.items| - 1])
  {
    if arg.Some? && truthy(arg.value) then
      var items :- PyLists.Remove(s.items, arg.value);
      Ok(Stack(items))
    else
      var items :- Delete(s.items, -1);
      Ok(Stack(items))
  }

  /** Last in, first out: a pop without argument undoes a push. */
  lemma PushThenPop<T>(s: Stack<T>, x: T, truthy: T -> bool)
    ensures Pop(Append(s, x), None, truthy) == Ok(s)
  {
    assert (s.items + [x])[..|s.items|] == s.items;
  }

  /** A falsy argument, even one that occurs in the stack, is ignored: the top
      item is deleted as if no argument were given. */
  lemma FalsyArgumentPopsTop<T>(s: Stack<T>, x: T, truthy: T -> bool)
    requires !truthy(x)
    ensures Pop(s, Some(x), truthy) == Pop(s, None, truthy)
  {
  }

  /** Python's truth value of an integer. */
  function IntTruthy(n: int): (b: bool)
    ensures !b <==> n == 0
  {
    n != 0
  }

  /** `pop(1)` on the stack 7, 9, 1 of integers deletes the value 1, not the
      item at position 1. */
  lemma PopOneTakesValue()
    ensures Pop(Stack([7, 9, 1]), Some(1), IntTruthy) == Ok(Stack([7, 9]))
  {
    var s := Stack([7, 9, 1]);
    assert IntTruthy(1);
    RemoveOneFrom791();
    assert PyLists.Remove(s.items, 1).Ok?;
  }

  /** The list-level step of `PopOneTakesValue`: the first 1 in 7, 9, 1 is at
      position 2, and deleting it leaves 7, 9. */
  lemma RemoveOneFrom791()
    ensures PyLists.Remove([7, 9, 1], 1) == Ok([7, 9])
  {
    var s: seq<int> := [7, 9, 1];
    var r := PyLists.Remove(s, 1);
    assert 1 in s by {
      assert s[2] == 1;
    }
    var k :| FirstAt(s, 1, k) && r.value == s[..k] + s[k + 1..];
    assert k == 2 by {
      assert s[0] != 1 && s[1] != 1;
    }
    assert s[..2] + s[3..] == [7, 9];
  }

  /** `index(1)` scans past 7 and 9. */
  lemma IndexOfOne()
    ensures Index([7, 9, 1], 1) == Ok(2)
  {
    var s := [7, 9, 1];
    assert s[1..] == [9, 1];
    assert [9, 1][1..] == [1];
    IndexSkip([9, 1], 1);
    IndexSkip(s, 1);
  }

  /** `index` skips a first item that differs. */
  lemma IndexSkip<T>(s: seq<T>, x: T)
    requires s != [] && s[0] != x
    ensures Index(s, x) == (if x in s[1..] then Ok(Index(s[1..], x).value + 1) else Err(ValueError))
  {
  }

  /** `pop(0)` on the stack 0, 5 deletes the top, not the value 0. */
  lemma PopZeroTakesTop()
    ensures Pop(Stack([0, 5]), Some(0), IntTruthy) == Ok(Stack([0]))
  {
    assert [0, 5][..1] == [0];
  }

  /** `contains(x)` */
  function Contains<T(==)>(s: Stack<T>, x: T): (b: bool)
    ensures b <==> exists i :: 0 <= i < |s.items| && s.items[i] == x
  {
    x in s.items
  }

  /** An item is contained exactly when popping it by value (with a truthy
      argument) succeeds. */
  lemma ContainsIffPoppable<T>(s: Stack<T>, x: T, truthy: T -> bool)
    requires truthy(x)
    ensures Contains(s, x) <==> Pop(s, Some(x), truthy).Ok?
  {
  }
}
